=== FILE: README.md ===
# Invoice recovery case tracker — a Dafny model

This project models the core of an invoice recovery case tracker: a
backend that stores **clients** (debtors) and **cases** (overdue invoices
tied to a client), and the browser screens that list, create and edit
cases through its REST interface.

- **Backend** (`schemas.dfy`, `models.dfy`, `listing.dfy`, `endpoints.dfy`,
  `invariants.dfy`). The database is a `Store`: the client rows and case
  rows in insertion order, plus the next value of each autoincrement key.
  Dates are day numbers and amounts are integer cents. The `DECIMAL(15, 2)`
  column has two decimal places, so integer cents are exact. Each endpoint
  is a pure function of the store and the decoded request. The three that
  write (`CreateClient`, `CreateCase`, `UpdateCase`) return a
  `Reply(store, body)`; the three reads (`ListClients`, `ListCases`,
  `GetCase`) return only the body. `CreateClient`, `CreateCase`,
  `ListCases` and `UpdateCase` check the request schema first and answer
  422. The real 422 body is a list of error objects;
  the model keeps only the names of the failing fields. Then come the
  handler's own checks (400 and 404 with the handler's `detail` text),
  and only then the write. `Inv` collects the table constraints: unique
  keys, unique emails, unique invoice numbers, every case referring to a
  stored client, and every row within the schemas' length bounds, positive
  amount and four status values. Email validity is the `isEmail`
  parameter and is not part of `Inv`. Every
  request keeps `Inv`, with `PATCH` served by the handler as written.
- **Frontend** (`numerals.dfy`, `api.dfy`, `ui.dfy`, `case_list.dfy`,
  `case_detail.dfy`, `case_create.dfy`). Each screen is a record of its
  React state. Each event handler is a function to the next state and,
  where the handler makes a request, the request it issues (`Command`,
  `Fetch`). A reply is a parameter of the function that handles it.
  The detail screen's edit toggle is an explicit `Mode` (`Viewing` or
  `Editing`).
- **Integration** (`integration.dfy`) follows what a screen sends through
  the backend handler that receives it.

Email syntax (`EmailStr`) is checked by a library outside this model. It
is the parameter `isEmail` of `CreateClient`.

## Model

| member | source | states |
|---|---|---|
| Schemas.ClientErrors | backend/schemas.py:9-15 | a client field is reported iff it breaks its bound: 1..255 characters for the four text fields, 1..50 for phone, and a valid email; no report iff the request is valid |
| Schemas.CaseErrors | backend/schemas.py:29-38 | invoice_number is reported iff its length is outside 1..100; invoice_amount iff it is not > 0; status iff it is not one of the four statuses; client_id iff it is not > 0 |
| Schemas.FieldValue | backend/schemas.py:35 | an omitted or null `last_follow_up_notes` is stored as no note; a given one is stored as given |
| Schemas.UpdateErrors | backend/schemas.py:40-42 | an update is accepted iff status is omitted or is one of the four statuses (explicit null status rejected, see Findings) |
| Schemas.UpdateErrorsAsWritten | backend/schemas.py:41 | the update schema as written: the status pattern is only checked on a string, so omitted or null status both pass |
| Models.FindClient | backend/main.py:57 | the client lookup finds a client iff one with that id is stored, and the one it finds has that id |
| Models.FindCase | backend/main.py:107 | the case lookup returns a position holding that id, or reports that no stored case has it |
| Models.EmptyInv | backend/models.py:9-35 | the empty database satisfies every table constraint |
| Endpoints.CreateClient | backend/main.py:32-44 | 422 iff the schema fails; 400 "Email already exists" iff it passes and some stored client has the email; otherwise exactly one client is appended, with the next id and the submitted fields, and the cases are unchanged; the store is unchanged on every failure |
| Endpoints.ListClients | backend/main.py:46-50 | the listing holds every stored client exactly once; ids and emails in it are distinct |
| Endpoints.CreateCase | backend/main.py:53-70 | 422 iff the schema fails; then 404 "Client not found" iff the client is missing, checked before the invoice number, so an unknown client always gives 404; then 400 "Invoice number already exists" iff taken; otherwise exactly one case is appended with the next id and the clients are unchanged |
| Endpoints.QueryErrors | backend/main.py:74-76 | the listing query is accepted iff each given parameter matches its pattern |
| Endpoints.OrderingOf | backend/main.py:86-99 | the listing is by invoice date iff sort_by is invoice_date; it is descending iff sort_by names a column and order is "desc"; with sort_by absent it is due date ascending |
| Endpoints.ListCases | backend/main.py:72-102 | a valid query answers a permutation of the stored cases whose status equals the filter (all cases when no filter is given), ordered by the chosen date column: non-decreasing for asc, non-increasing for desc |
| Endpoints.DefaultOrderIsDueDateAscending | backend/main.py:97-99 | without sort_by the listing is non-decreasing in due date even when order is "desc" |
| Endpoints.GetCase | backend/main.py:104-110 | 404 "Case not found" iff no stored case has the id; otherwise the stored case with that id, together with the stored client it refers to |
| Endpoints.Patch | backend/main.py:123-126 | an update writes only the supplied fields: status when given, notes when given (null clears them); id, client, invoice number, amount and dates never change |
| Endpoints.UpdateCase | backend/main.py:112-130 | 422 iff the update is invalid; 404 "Case not found" iff no case has the id; success iff the update is valid and a case has the id, and then that one case is patched, every other case and all clients stay as they were; errors are only ever 404 or 422 |
| Endpoints.UpdateCaseAsWritten | backend/main.py:119-130 | the handler as written agrees with UpdateCase on every update without a null status; a null status on a stored case ends in 500; an update that passes its validation but names no stored case gets 404 "Case not found", null status or not; either way it leaves the same store as UpdateCase |
| Listing.WithStatus | backend/main.py:83-84 | the status filter keeps each case of that status as often as it is stored and drops all others |
| Listing.Insert | backend/main.py:87-96 | inserting into an ordered listing keeps it ordered and adds exactly that case |
| Listing.SortCases | backend/main.py:87-99 | the ordered listing is a permutation of its input and ordered by the date column in the direction |
| StoreInvariants.CreateClientKeepsInv | backend/models.py:12-18 | creating a client keeps ids unique, emails unique and every case's client present |
| StoreInvariants.CreateCaseKeepsInv | backend/models.py:28-34 | creating a case keeps ids unique, invoice numbers unique and every case's client present |
| StoreInvariants.UpdateCaseKeepsInv | backend/models.py:29-34 | updating a case keeps every table constraint, the status among the four values included |
| StoreInvariants.UpdateCaseAsWrittenKeepsInv | backend/main.py:112-130 | the PATCH handler as written keeps every table constraint: its server error writes nothing |
| StoreInvariants.StepKeepsInv | backend/main.py:32-130 | every endpoint as written, PATCH included, keeps the table constraints |
| StoreInvariants.RunKeepsInv | backend/main.py:32-130 | any sequence of requests served one at a time by the handlers as written keeps the table constraints |
| StoreInvariants.ReachableStoresKeepInv | backend/models.py:9-35 | every database reachable from the empty one satisfies every table constraint |
| NullStatus.AsWrittenNullStatusIsServerError | backend/main.py:124-128 | as written, `{"status": null}` on an existing case ends in a 500 reply; the corrected handler answers 422 |
| NullStatus.WitnessReachesServerError | backend/models.py:34 | a concrete database satisfying every constraint on which the as-written handler answers 500 |
| Numerals.IntToString | frontend/src/pages/CaseCreate.jsx:30 | an id's text is non-empty, starts with `-` iff the id is negative, and is otherwise decimal digits; `ParseIntToString` is its inverse |
| Numerals.NatToString | frontend/src/pages/CaseCreate.jsx:30 | an id's text is non-empty, all decimal digits, without a leading zero |
| Numerals.ParseInt | frontend/src/pages/CaseCreate.jsx:52 | parseInt yields a number iff digits follow the optional sign, negative only after a minus |
| Numerals.ParseIntToString | frontend/src/pages/CaseCreate.jsx:30-52 | parseInt of an integer's text gives the integer back |
| Numerals.IntToStringInjective | frontend/src/pages/CaseList.jsx:147 | different ids get different texts, so different cases get different links |
| Api.QueryPairs | frontend/src/api.js:18-21 | at most three pairs, each with a non-empty value, in the fixed order status, sort_by, order |
| Api.QueryPairsLookup | frontend/src/api.js:19-21 | each parameter is present iff its value is non-empty, and then carries that value |
| Api.QueryString | frontend/src/api.js:23 | the query string is empty iff there are no pairs |
| Api.CasePath | frontend/src/api.js:27-29 | the path of `getCase` and `updateCase` is `/cases/` followed by exactly the id's text |
| Api.CasesPath | frontend/src/api.js:23-24 | the path is exactly `/cases` iff every value is empty; otherwise it is `/cases?` followed by the joined pairs |
| Api.ParseQueryString | frontend/src/api.js:18-23 | reading the query string back yields exactly the appended pairs |
| Api.CasesPathRoundTrip | frontend/src/api.js:17-25 | the requested path splits into the route `/cases` and exactly the appended pairs |
| Ui.StatusClass | frontend/src/pages/CaseDetail.jsx:81-89 | the badge class is one of the four classes, and `status-new` for any other status (Object.prototype keys aside, see Left out) |
| Ui.StatusClassRoundTrip | frontend/src/pages/CaseList.jsx:36-44 | on the four statuses the class determines the status |
| Ui.ClassStatusRoundTrip | frontend/src/pages/CaseList.jsx:37-42 | each of the four classes is the badge of one status |
| Ui.ErrorText | frontend/src/pages/CaseDetail.jsx:33 | the message is the reply's detail when it is non-empty, else the screen's fallback; never empty |
| CaseListScreen.HandleFilterChange | frontend/src/pages/CaseList.jsx:32-34 | the changed key takes the new value and the other two keys keep theirs |
| CaseListScreen.ChangeKeepsSelectable | frontend/src/pages/CaseList.jsx:77-111 | choosing any offered option keeps the three filters on offered values |
| CaseListScreen.StartFetch | frontend/src/pages/CaseList.jsx:15-19 | a fetch shows loading, clears the error and requests the path of the current filters |
| CaseListScreen.Mount | frontend/src/pages/CaseList.jsx:9-13 | the screen starts with status `''`, sort_by due_date, order asc, no cases, no error, and fetches |
| CaseListScreen.MountQuery | frontend/src/pages/CaseList.jsx:9-30 | the first request is `/cases?sort_by=due_date&order=asc` |
| CaseListScreen.ChangeFilter | frontend/src/pages/CaseList.jsx:28-34 | a filter change fetches iff the value actually changed, with the new filters, keeping the old cases until the reply |
| CaseListScreen.OnCasesReply | frontend/src/pages/CaseList.jsx:20-25 | success replaces the cases; failure keeps them and reports detail or "Failed to fetch cases" |
| CaseListScreen.RowOf | frontend/src/pages/CaseList.jsx:135-152 | each row shows the case's invoice number and status, the badge class `getStatusClass` gives that status, and a link to `/cases/{id}` |
| CaseListScreen.Render | frontend/src/pages/CaseList.jsx:61-156 | loading shows only the loading view; otherwise the empty state iff there are no cases, else one row per case in order |
| CaseListScreen.RowLinkNamesCase | frontend/src/pages/CaseList.jsx:147 | the id read back from a row's link is the case's id |
| CaseDetailScreen.FormOf | frontend/src/pages/CaseDetail.jsx:28-31 | the form holds the case's status and its notes, a missing note as `''` |
| CaseDetailScreen.StartFetch | frontend/src/pages/CaseDetail.jsx:22-26 | a fetch shows loading, clears the error, changes nothing else, and requests `/cases/{id}` for the screen's own id |
| CaseDetailScreen.Mount | frontend/src/pages/CaseDetail.jsx:8-20 | the screen keeps the route id, starts viewing, loading, with nothing loaded and an empty form, and fetches `/cases/{id}` |
| CaseDetailScreen.OnFetched | frontend/src/pages/CaseDetail.jsx:22-37 | a fetched case replaces the data and the form; a failure keeps both and reports detail or "Failed to fetch case details" |
| CaseDetailScreen.StartEdit | frontend/src/pages/CaseDetail.jsx:112 | "Edit Case" switches to editing and changes nothing else: the form, case, messages and id stay |
| CaseDetailScreen.FailedRefetchKeepsSavedForm | frontend/src/pages/CaseDetail.jsx:22-60 | after a successful save whose re-fetch fails, the screen views the old case while "Edit Case" opens on the saved values |
| CaseDetailScreen.EditStatus | frontend/src/pages/CaseDetail.jsx:133 | changing the status select changes only the form's status; the id, case, mode, loading flag and messages stay |
| CaseDetailScreen.EditNotes | frontend/src/pages/CaseDetail.jsx:147 | changing the text area changes only the form's notes; the id, case, mode, loading flag and messages stay |
| CaseDetailScreen.Diff | frontend/src/pages/CaseDetail.jsx:44-50 | the body has status iff it differs from the fetched one, and notes iff they differ from the fetched notes read as `''` when missing |
| CaseDetailScreen.ClearedNoteIsSentEmpty | frontend/src/pages/CaseDetail.jsx:48-50 | clearing a stored note sends `''`, not null |
| CaseDetailScreen.FormOfHasNoDiff | frontend/src/pages/CaseDetail.jsx:28-50 | the form as fetched has nothing to save |
| CaseDetailScreen.Submit | frontend/src/pages/CaseDetail.jsx:39-64 | both messages are cleared; an empty diff sets "No changes to save" with no request; otherwise a PATCH of exactly the diff to `/cases/{id}`; without a loaded case, "Failed to update case"; the id, form, case, mode and loading flag stay |
| CaseDetailScreen.SubmitCallsIffChanged | frontend/src/pages/CaseDetail.jsx:44-57 | saving makes a request iff the form differs from the fetched case |
| CaseDetailScreen.OnUpdated | frontend/src/pages/CaseDetail.jsx:57-63 | success sets "Case updated successfully!", leaves editing, clears the error and re-fetches, keeping the id, case and form; failure reports detail or "Failed to update case" and changes nothing else |
| CaseDetailScreen.Cancel | frontend/src/pages/CaseDetail.jsx:158-166 | cancel leaves editing, restores the form from the fetched case and clears error and success; the id, case and loading flag stay |
| CaseDetailScreen.CancelDiscardsEdits | frontend/src/pages/CaseDetail.jsx:158-166 | after cancel, editing and saving again finds no changes |
| CaseDetailScreen.Render | frontend/src/pages/CaseDetail.jsx:91-127 | the full-page error appears iff not loading, an error is set and no case has loaded; the edit form shows iff editing |
| CaseDetailScreen.ReadAndSaveShareThePath | frontend/src/api.js:27-29 | reading and patching a case both target `/cases/{id}` |
| CaseCreateScreen.OnClients | frontend/src/pages/CaseCreate.jsx:25-36 | a non-empty list preselects the first client's id as text; an empty list leaves the form; a failure reports the fixed message; the submitting flag stays |
| CaseCreateScreen.NotesPayload | frontend/src/pages/CaseCreate.jsx:56 | empty notes are sent as null and other notes unchanged |
| CaseCreateScreen.Payload | frontend/src/pages/CaseCreate.jsx:50-57 | the payload carries the parsed client id, the normalised notes and the other fields as entered, the initial status "New" included |
| CaseCreateScreen.NotesRoundTrip | frontend/src/pages/CaseCreate.jsx:56 | notes sent as null read back as `''`: the normalisation loses nothing |
| CaseCreateScreen.PreselectedIdRoundTrip | frontend/src/pages/CaseCreate.jsx:29-52 | the preselected client reaches the payload as the same integer id |
| CaseCreateScreen.Render | frontend/src/pages/CaseCreate.jsx:68-83 | with zero clients no form is produced and the "create a client first" view is shown |
| CaseCreateScreen.LoadFailureShowsNoForm | frontend/src/pages/CaseCreate.jsx:32-33 | a failed client fetch also ends in the "create a client first" view |
| CaseCreateScreen.Submit | frontend/src/pages/CaseCreate.jsx:44-57 | submitting disables the control, clears the error and sends the payload of the form |
| CaseCreateScreen.OnCreated | frontend/src/pages/CaseCreate.jsx:59-65 | success navigates to `/cases/{id}` with the returned id; failure reports detail or the fallback and keeps the form and client list for a retry; the control is re-enabled either way and nothing else changes |
| CaseCreateScreen.NavigationNamesNewCase | frontend/src/pages/CaseCreate.jsx:60 | the id read back from the navigation path is the id the backend returned |
| Integration.ListScreenQueryIsServed | frontend/src/pages/CaseList.jsx:15-30 | for every choice of the three selects, the backend accepts the request and answers the chosen status's cases ordered by the chosen column and direction |
| Integration.SaveThenFetchShowsForm | frontend/src/pages/CaseDetail.jsx:39-60 | a non-empty save is accepted by the backend's handler as written, and the re-fetched case fills the form with exactly what was submitted |
| Integration.PreselectedClientIsKnown | frontend/src/pages/CaseCreate.jsx:29-52 | the preselected client is the first one the listing returns, whatever its order, and a form left on it never gets "Client not found" |
| Integration.CreatedCaseShowsFormValues | frontend/src/pages/CaseCreate.jsx:50-60 | a form whose request passes validation, names a stored client and a new invoice number is created; `GET /cases/{id}` for the returned id finds exactly that case, and the detail screen's form shows the status and notes that were entered |

## Left out

- Database and framework plumbing is not modelled: sessions, commit and refresh, `create_all`, CORS, FastAPI routing, and the embedded `client` object in list replies. The store is abstract.
- `created_at` and `updated_at` are not modelled. The server's clock sets them.
- `backend/init_db.py` is not modelled. It does file and environment I/O and runs an SQL file that is not part of this model.
- Email syntax and any normalisation `EmailStr` performs are not modelled. They come from an outside library and are the parameter `isEmail`.
- Requests are already decoded into typed records. JSON decoding, type coercion, missing required fields, path-parameter parsing and extra body fields are not modelled. The backend ignores extra fields, which is why only status and notes reach an update.
- `invoice_amount` is a float in the request schema. The model uses integer cents. A request amount below one cent that rounds to 0.00 in the `DECIMAL(15, 2)` column is not modelled, and neither is the column's 13-digit limit.
- Due date before invoice date is not modelled. Neither side checks it.
- Network round trips, React rendering, routing in `frontend/src/App.jsx`, locale currency and date formatting, and the table's client-name column are not modelled. Replies are parameters of the handler functions.
- `frontend/src/pages/ClientCreate.jsx` is not modelled. It only resets its form and navigates after a timer.
- The creation form's `handleChange` and the browser's `required`, `maxLength` and `min` checks are not modelled. The form is given as filled. Its amount and dates are already numbers: `parseFloat` and date text are not modelled.
- Ui.ErrorText: the backend's 422 `detail` is a list of error objects, not text. A screen stores it as the error as it is, and rendering it fails, for example on `/cases/abc`, whose id does not parse. The model types `detail` as optional text and so shows an error message there.
- Numerals.IntToString: ids are unbounded integers. JavaScript numbers are exact only below 2^53, and `String` switches to exponent notation from 10^21. The model assumes every id is below 2^53, which an autoincrement key would pass only after 2^53 inserts.
- Numerals.ParseInt: models `parseInt` without leading white space and without the `0x` prefix. Every string it receives here is an id's decimal text.
- URL percent- and plus-encoding by `URLSearchParams` is not modelled. Queries are ordered key/value pairs, and Api.ParseQueryString requires keys and values free of `&` and keys free of `=`.
- Out-of-order replies during rapid filter changes are not modelled. The model assumes each reply answers the latest request.
- Cascade delete of a client's cases is not modelled. There is no delete endpoint.
- Backend concurrency is not modelled: the model assumes requests are served one at a time. The framework runs these handlers in a thread pool, so two concurrent inserts with the same email or invoice number could both pass the duplicate check; the second would then hit the unique constraint and end in a 500.
- Ui.StatusClass: JavaScript's `statusMap[status] || 'status-new'` returns an inherited Object.prototype member for keys such as "toString" or "constructor". The model returns `status-new` there. Such a status never reaches a screen, because every stored status passed the backend's pattern.

Entering edit mode only switches the mode (`CaseDetail.jsx:112`); the form keeps what it holds (`CaseDetailScreen.StartEdit`). The form differs from the case on view only after a save that succeeds and whose re-fetch fails: the screen then shows the old case, and "Edit Case" opens on the saved values (`CaseDetailScreen.FailedRefetchKeepsSavedForm`).

## Findings

| source | as written | input that shows it | evidently intended | confidence | as-written member | corrected member |
|---|---|---|---|---|---|---|
| backend/schemas.py:41, backend/main.py:124-128 | `CaseUpdate.status` is `Optional`, so an explicit `null` passes validation. `exclude_unset` keeps it, `setattr` writes `None` into the NOT NULL `status` column, and the commit fails with an unhandled error | `PATCH /cases/1` with body `{"status": null}` on a database holding case 1 | reject a null status as invalid (422) and never answer a well-formed request with 500 | medium, not executed (the database engine's behaviour is assumed from the column declaration) | NullStatus.AsWrittenNullStatusIsServerError (over Endpoints.UpdateCaseAsWritten) | Endpoints.UpdateCase with StoreInvariants.UpdateCaseKeepsInv |

=== FILE: api.dfy ===
/**
 * The request shapes of the frontend's API client (frontend/src/api.js):
 * the query string of the case listing, the paths of the single-case
 * requests, and the JSON bodies the screens send. Query parameters are an
 * ordered list of key/value pairs; percent-encoding is not modelled.
 */
module Api {
  import opened Wrappers

  /** The filter values passed to `getCases`; `""` stands for a missing or empty value. */
  datatype Params = Params(status: string, sortBy: string, order: string)

  type Pair = (string, string)

  /** Position of a parameter name in the fixed emission order. */
  function Rank(key: string): int {
    if key == "status" then 0 else if key == "sort_by" then 1 else if key == "order" then 2 else 3
  }

  /** The value of the first pair named `key`, as `URLSearchParams.get` finds it. */
  function Lookup(ps: seq<Pair>, key: string): (r: Option<string>)
    ensures r.Some? <==> exists k :: 0 <= k < |ps| && ps[k].0 == key
  {
    if |ps| == 0 then None
    else if ps[0].0 == key then Some(ps[0].1)
    else
      var r := Lookup(ps[1..], key);
      assert forall k :: 0 < k < |ps| ==> ps[k] == ps[1..][k - 1];
      r
  }

  /** `Some(v)` for a non-empty `v`, the way a truthiness test treats strings. */
  function NonEmpty(v: string): (r: Option<string>)
    ensures r.Some? <==> v != ""
    ensures r.Some? ==> r.value == v
  {
    if v == "" then None else Some(v)
  }

  /** The pairs `getCases` appends: each non-empty value, in the order status, sort_by, order. */
  function QueryPairs(p: Params): (ps: seq<Pair>)
    ensures |ps| <= 3
    ensures forall k :: 0 <= k < |ps| ==> ps[k].1 != ""
    ensures forall i, j :: 0 <= i < j < |ps| ==> Rank(ps[i].0) < Rank(ps[j].0)
    ensures forall k :: 0 <= k < |ps| ==> Rank(ps[k].0) < 3
  {
    Pick(p.status, "status") + Pick(p.sortBy, "sort_by") + Pick(p.order, "order")
  }

  /** The pair `(key, v)` when `v` is non-empty. */
  function Pick(v: string, key: string): (ps: seq<Pair>)
    ensures Lookup(ps, key) == NonEmpty(v)
    ensures forall k :: 0 <= k < |ps| ==> ps[k] == (key, v) && v != ""
  {
    if v != "" then [(key, v)] else []
  }

  /** Each parameter can be read back from the pairs: present exactly when its value is non-empty. */
  lemma QueryPairsLookup(p: Params)
    ensures Lookup(QueryPairs(p), "status") == NonEmpty(p.status)
    ensures Lookup(QueryPairs(p), "sort_by") == NonEmpty(p.sortBy)
    ensures Lookup(QueryPairs(p), "order") == NonEmpty(p.order)
  {
    var a := Pick(p.status, "status");
    var b := Pick(p.sortBy, "sort_by");
    var c := Pick(p.order, "order");
    assert QueryPairs(p) == a + (b + c);
    if p.status != "" { LookupFirst(a, b + c, "status"); } else { assert a + (b + c) == b + c; }
    LookupSkip(a, b + c, "sort_by");
    if p.sortBy != "" { LookupFirst(b, c, "sort_by"); } else { assert b + c == c; }
    LookupSkip(a, b + c, "order");
    LookupSkip(b, c, "order");
  }

  /** A key present in `a` is found in `a`. */
  lemma LookupFirst(a: seq<Pair>, b: seq<Pair>, key: string)
    requires |a| <= 1 && Lookup(a, key).Some?
    ensures Lookup(a + b, key) == Lookup(a, key)
  {
    assert (a + b)[0] == a[0];
  }

  /** A key missing from `a` is looked up in `b`. */
  lemma {:induction false} LookupSkip(a: seq<Pair>, b: seq<Pair>, key: string)
    requires forall k :: 0 <= k < |a| ==> a[k].0 != key
    ensures Lookup(a + b, key) == Lookup(b, key)
    decreases |a|
  {
    if |a| > 0 {
      assert (a + b)[0] == a[0];
      assert (a + b)[1..] == a[1..] + b;
      assert Lookup(a + b, key) == Lookup((a + b)[1..], key);
      LookupSkip(a[1..], b, key);
    } else {
      assert a + b == b;
    }
  }

  /** One `key=value` item. */
  function EncodePair(pair: Pair): string {
    pair.0 + "=" + pair.1
  }

  /** `URLSearchParams.toString()`: the items joined with `&`. */
  function QueryString(ps: seq<Pair>): (q: string)
    ensures q == "" <==> ps == []
  {
    if |ps| == 0 then ""
    else if |ps| == 1 then EncodePair(ps[0])
    else EncodePair(ps[0]) + "&" + QueryString(ps[1..])
  }

  const CasesRoute: string := "/cases"

  /** The path `getCases` requests: no `?` at all when there is no parameter. */
  function CasesPath(p: Params): (path: string)
    ensures path == CasesRoute <==> p.status == "" && p.sortBy == "" && p.order == ""
    ensures path != CasesRoute ==> path == CasesRoute + "?" + QueryString(QueryPairs(p))
  {
    var q := QueryString(QueryPairs(p));
    var path := CasesRoute + (if q != "" then "?" + q else "");
    assert q != "" ==> path[|CasesRoute|] == '?';
    path
  }

  /** The path of `getCase(id)` and of `updateCase(id, data)`. */
  function CasePath(id: string): (p: string)
    ensures |p| == |CasesRoute| + 1 + |id|
    ensures p[..|CasesRoute| + 1] == CasesRoute + "/" && p[|CasesRoute| + 1..] == id
  {
    CasesRoute + "/" + id
  }

  // ------------------------------------------------------- reading back

  /** `s` cut at every `sep`; always at least one piece. */
  function Split(s: string, sep: char): (parts: seq<string>)
    ensures |parts| > 0
    decreases |s|
  {
    if |s| == 0 then [""]
    else if s[0] == sep then [""] + Split(s[1..], sep)
    else
      var rest := Split(s[1..], sep);
      [[s[0]] + rest[0]] + rest[1..]
  }

  /** An item cut at its first `=`; an item without `=` has the empty value. */
  function DecodePair(s: string): (pair: Pair)
    decreases |s|
  {
    if |s| == 0 then ("", "")
    else if s[0] == '=' then ("", s[1..])
    else
      var (k, v) := DecodePair(s[1..]);
      ([s[0]] + k, v)
  }

  /** The pairs of a query string, as `new URLSearchParams(q)` reads them. */
  function ParseQuery(q: string): seq<Pair> {
    if q == "" then []
    else
      var items := Split(q, '&');
      seq(|items|, k requires 0 <= k < |items| => DecodePair(items[k]))
  }

  /** The route and the query pairs of a request path, cut at its first `?`. */
  function RequestTarget(path: string): (string, seq<Pair>)
    decreases |path|
  {
    if |path| == 0 then ("", [])
    else if path[0] == '?' then ("", ParseQuery(path[1..]))
    else
      var (route, ps) := RequestTarget(path[1..]);
      ([path[0]] + route, ps)
  }

  /** No pair carries the characters that delimit pairs and items. */
  predicate Plain(ps: seq<Pair>) {
    forall k :: 0 <= k < |ps| ==> '&' !in ps[k].0 && '&' !in ps[k].1 && '=' !in ps[k].0
  }

  lemma {:induction false} SplitWithout(s: string, sep: char)
    requires sep !in s
    ensures Split(s, sep) == [s]
    decreases |s|
  {
    if |s| > 0 {
      SplitWithout(s[1..], sep);
      assert [s[0]] + s[1..] == s;
    }
  }

  lemma {:induction false} SplitAfter(a: string, sep: char, b: string)
    requires sep !in a
    ensures Split(a + [sep] + b, sep) == [a] + Split(b, sep)
    decreases |a|
  {
    if |a| == 0 {
      assert a + [sep] + b == [sep] + b;
      assert ([sep] + b)[1..] == b;
    } else {
      var s := a + [sep] + b;
      assert s[0] == a[0];
      assert s[1..] == a[1..] + [sep] + b;
      SplitAfter(a[1..], sep, b);
      assert [a[0]] + a[1..] == a;
    }
  }

  lemma {:induction false} DecodeEncodePair(pair: Pair)
    requires '=' !in pair.0
    ensures DecodePair(EncodePair(pair)) == pair
    decreases |pair.0|
  {
    var s := EncodePair(pair);
    if |pair.0| == 0 {
      assert s == "=" + pair.1;
      assert s[1..] == pair.1;
    } else {
      assert s[0] == pair.0[0];
      assert s[1..] == EncodePair((pair.0[1..], pair.1));
      DecodeEncodePair((pair.0[1..], pair.1));
      assert [pair.0[0]] + pair.0[1..] == pair.0;
    }
  }

  lemma {:induction false} SplitQueryString(ps: seq<Pair>)
    requires |ps| > 0 && Plain(ps)
    ensures Split(QueryString(ps), '&') == seq(|ps|, k requires 0 <= k < |ps| => EncodePair(ps[k]))
    decreases |ps|
  {
    var e := EncodePair(ps[0]);
    assert '&' !in e by {
      assert '&' !in ps[0].0 && '&' !in ps[0].1;
    }
    if |ps| == 1 {
      SplitWithout(e, '&');
    } else {
      assert Plain(ps[1..]) by {
        forall k | 0 <= k < |ps[1..]| ensures '&' !in ps[1..][k].0 && '&' !in ps[1..][k].1 && '=' !in ps[1..][k].0 {
          assert ps[1..][k] == ps[k + 1];
        }
      }
      SplitQueryString(ps[1..]);
      SplitAfter(e, '&', QueryString(ps[1..]));
    }
  }

  /** Reading the query string back gives exactly the pairs that were emitted. */
  lemma ParseQueryString(ps: seq<Pair>)
    requires Plain(ps)
    ensures ParseQuery(QueryString(ps)) == ps
  {
    if |ps| > 0 {
      SplitQueryString(ps);
      var items := Split(QueryString(ps), '&');
      forall k | 0 <= k < |ps| ensures DecodePair(items[k]) == ps[k] {
        DecodeEncodePair(ps[k]);
      }
    }
  }

  lemma {:induction false} RouteThenQuery(route: string, q: string)
    requires '?' !in route
    ensures RequestTarget(route + "?" + q) == (route, ParseQuery(q))
    decreases |route|
  {
    if |route| == 0 {
      assert route + "?" + q == "?" + q;
      assert ("?" + q)[1..] == q;
    } else {
      var path := route + "?" + q;
      assert path[0] == route[0];
      assert path[1..] == route[1..] + "?" + q;
      RouteThenQuery(route[1..], q);
      assert [route[0]] + route[1..] == route;
    }
  }

  lemma {:induction false} RouteOnly(route: string)
    requires '?' !in route
    ensures RequestTarget(route) == (route, [])
    decreases |route|
  {
    if |route| > 0 {
      RouteOnly(route[1..]);
      assert [route[0]] + route[1..] == route;
    }
  }

  /** The path `getCases` builds is read back as the route `/cases` with exactly its parameters. */
  lemma CasesPathRoundTrip(p: Params)
    requires Plain(QueryPairs(p))
    ensures RequestTarget(CasesPath(p)) == (CasesRoute, QueryPairs(p))
  {
    var ps := QueryPairs(p);
    if ps == [] {
      RouteOnly(CasesRoute);
    } else {
      RouteThenQuery(CasesRoute, QueryString(ps));
      ParseQueryString(ps);
    }
  }

  /** The JSON body `updateCase` sends: each field present or absent. */
  datatype UpdateBody = UpdateBody(status: Option<string>, notes: Option<string>) {
    predicate IsEmpty() { status.None? && notes.None? }
  }

  /**
   * The JSON body `createCase` sends. A `None` number is a `NaN` or a blank
   * field, which reaches the backend as `null` or `""`.
   */
  datatype CasePayload = CasePayload(
    clientId: Option<int>,
    invoiceNumber: string,
    amountCents: Option<int>,
    invoiceDate: Option<int>,
    dueDate: Option<int>,
    status: string,
    notes: Option<string>)
}

=== FILE: case_create.dfy ===
/**
 * The case creation screen (frontend/src/pages/CaseCreate.jsx): the
 * client list that gates the form, the preselected client, the payload the
 * form becomes, and where a reply leads.
 */
module CaseCreateScreen {
  import opened Wrappers
  import opened Schemas
  import opened Models
  import opened Numerals
  import opened Api
  import opened Ui

  /**
   * The form. `clientId` holds the select's text; a blank amount or date
   * field is `None`. The amount is in cents.
   */
  datatype CreateForm = CreateForm(
    clientId: string,
    invoiceNumber: string,
    amountCents: Option<int>,
    invoiceDate: Option<int>,
    dueDate: Option<int>,
    status: string,
    notes: string)

  const InitialForm: CreateForm := CreateForm("", "", None, None, None, StatusNew, "")

  datatype CreateScreen = CreateScreen(
    clients: seq<Client>,
    form: CreateForm,
    loading: bool,
    submitting: bool,
    error: Option<string>)

  const LoadFailed: string := "Failed to load clients. Please create a client first."
  const CreateFallback: string := "Failed to create case. Please check all fields."

  /** The screen on mount, waiting for `getClients`. */
  const Initial: CreateScreen := CreateScreen([], InitialForm, true, false, None)

  datatype ClientsReply = ClientsLoaded(clients: seq<Client>) | ClientsFailed

  /** The reply to `getClients`: the first client, if any, is preselected. */
  function OnClients(st: CreateScreen, reply: ClientsReply): (r: CreateScreen)
    ensures !r.loading && r.submitting == st.submitting
    ensures reply.ClientsLoaded? ==> r.clients == reply.clients && r.error == st.error
    ensures reply.ClientsLoaded? && |reply.clients| > 0 ==>
      r.form == st.form.(clientId := IntToString(reply.clients[0].id))
    ensures reply.ClientsLoaded? && |reply.clients| == 0 ==> r.form == st.form
    ensures reply.ClientsFailed? ==> r.clients == st.clients && r.form == st.form && r.error == Some(LoadFailed)
  {
    match reply
    case ClientsLoaded(cs) =>
      var form := if |cs| > 0 then st.form.(clientId := IntToString(cs[0].id)) else st.form;
      st.(clients := cs, form := form, loading := false)
    case ClientsFailed =>
      st.(error := Some(LoadFailed), loading := false)
  }

  /** `last_follow_up_notes || null`. */
  function NotesPayload(notes: string): (r: Option<string>)
    ensures r.None? <==> notes == ""
    ensures r.Some? ==> r.value == notes
  {
    if notes == "" then None else Some(notes)
  }

  /** The JSON body `handleSubmit` builds; `parseInt` turns the select's text back into an id. */
  function Payload(f: CreateForm): (p: CasePayload)
    ensures p.clientId == ParseInt(f.clientId)
    ensures p.notes == NotesPayload(f.notes)
    ensures p.invoiceNumber == f.invoiceNumber && p.status == f.status && p.amountCents == f.amountCents
    ensures p.invoiceDate == f.invoiceDate && p.dueDate == f.dueDate
  {
    CasePayload(ParseInt(f.clientId), f.invoiceNumber, f.amountCents, f.invoiceDate, f.dueDate,
                f.status, NotesPayload(f.notes))
  }

  /** Sending empty notes as `null` loses nothing: the detail screen shows them as `""` again. */
  lemma NotesRoundTrip(notes: string)
    ensures NotesPayload(notes).GetOr("") == notes
  {
  }

  /** The preselected client reaches the payload as the same id. */
  lemma PreselectedIdRoundTrip(st: CreateScreen, cs: seq<Client>)
    requires |cs| > 0
    ensures Payload(OnClients(st, ClientsLoaded(cs)).form).clientId == Some(cs[0].id)
  {
    ParseIntToString(cs[0].id);
  }

  datatype CreateView = LoadingView | NoClientsView | FormView(error: Option<string>, form: CreateForm)

  /** With no client the form is replaced by the "create a client first" message. */
  function Render(st: CreateScreen): (v: CreateView)
    ensures v.LoadingView? <==> st.loading
    ensures v.NoClientsView? <==> !st.loading && |st.clients| == 0
    ensures v.FormView? ==> v.form == st.form && v.error == st.error
  {
    if st.loading then LoadingView
    else if |st.clients| == 0 then NoClientsView
    else FormView(st.error, st.form)
  }

  /** A failed client fetch leaves the "create a client first" view, not a form. */
  lemma LoadFailureShowsNoForm()
    ensures Render(OnClients(Initial, ClientsFailed)) == NoClientsView
  {
  }

  /** "Create Case": the control is disabled and the error cleared while the request is out. */
  function Submit(st: CreateScreen): (r: (CreateScreen, CasePayload))
    ensures r.0 == st.(submitting := true, error := None)
    ensures r.1 == Payload(st.form)
  {
    (st.(submitting := true, error := None), Payload(st.form))
  }

  datatype CreateReply = Created(id: int) | CreateFailed(detail: Option<string>)

  /** The reply to `createCase`: go to the new case's page, or report and re-enable. */
  function OnCreated(st: CreateScreen, reply: CreateReply): (r: (CreateScreen, Option<string>))
    ensures !r.0.submitting
    ensures reply.Created? ==> r.1 == Some(CasePath(IntToString(reply.id))) && r.0 == st.(submitting := false)
    ensures reply.CreateFailed? ==>
      && r.1.None?
      && r.0 == st.(submitting := false, error := Some(ErrorText(reply.detail, CreateFallback)))
      && r.0.form == st.form && r.0.clients == st.clients
  {
    match reply
    case Created(id) => (st.(submitting := false), Some(CasePath(IntToString(id))))
    case CreateFailed(d) => (st.(submitting := false, error := Some(ErrorText(d, CreateFallback))), None)
  }

  /** The page navigated to reads back the id the backend returned. */
  lemma NavigationNamesNewCase(st: CreateScreen, id: int)
    ensures var path := OnCreated(st, Created(id)).1.value;
      path[..|CasesRoute| + 1] == CasesRoute + "/" && ParseInt(path[|CasesRoute| + 1..]) == Some(id)
  {
    var path := OnCreated(st, Created(id)).1.value;
    assert path[|CasesRoute| + 1..] == IntToString(id);
    ParseIntToString(id);
  }
}

=== FILE: case_detail.dfy ===
/**
 * The case detail screen (frontend/src/pages/CaseDetail.jsx): a two-state
 * machine, Viewing and Editing, over the last fetched case and an edit
 * form of two fields. Saving sends only the fields that differ from the
 * fetched case; cancelling restores the form from it.
 */
module CaseDetailScreen {
  import opened Wrappers
  import opened Schemas
  import opened Models
  import opened Api
  import opened Ui

  datatype Mode = Viewing | Editing

  /** The edit form; notes are text, so a missing note shows as `""`. */
  datatype EditForm = EditForm(status: string, notes: string)

  datatype DetailScreen = DetailScreen(
    id: string,
    caseData: Option<Case>,
    form: EditForm,
    mode: Mode,
    loading: bool,
    error: Option<string>,
    success: Option<string>)

  /** A request the screen issues. */
  datatype Command = NoCall | FetchCase(path: string) | PatchCase(path: string, body: UpdateBody)

  const FetchFallback: string := "Failed to fetch case details"
  const UpdateFallback: string := "Failed to update case"
  const NoChanges: string := "No changes to save"
  const Saved: string := "Case updated successfully!"

  /** `notes || ''`. */
  function NotesText(notes: Option<string>): (t: string)
    ensures notes.Some? ==> t == notes.value
    ensures notes.None? ==> t == ""
  {
    notes.GetOr("")
  }

  /** The form `fetchCase` fills in from a case. */
  function FormOf(c: Case): (f: EditForm)
    ensures f.status == c.status && f.notes == NotesText(c.notes)
  {
    EditForm(c.status, NotesText(c.notes))
  }

  /** `fetchCase` sets `loading` and clears the error before its request. */
  function StartFetch(st: DetailScreen): (r: (DetailScreen, Command))
    ensures r.0 == st.(loading := true, error := None)
    ensures r.1 == FetchCase(CasePath(st.id))
  {
    (st.(loading := true, error := None), FetchCase(CasePath(st.id)))
  }

  /** The screen for route id `id`: nothing loaded, viewing, first fetch under way. */
  function Mount(id: string): (r: (DetailScreen, Command))
    ensures r.0.id == id && r.0.form == EditForm("", "")
    ensures r.0.caseData.None? && r.0.mode == Viewing && r.0.loading
    ensures r.0.error.None? && r.0.success.None?
    ensures r.1 == FetchCase(CasePath(id))
  {
    StartFetch(DetailScreen(id, None, EditForm("", ""), Viewing, true, None, None))
  }

  datatype FetchReply = Fetched(c: Case) | FetchFailed(detail: Option<string>)

  /** The reply to `getCase`: a case replaces the data and the form; a failure only reports. */
  function OnFetched(st: DetailScreen, reply: FetchReply): (r: DetailScreen)
    ensures !r.loading && r.mode == st.mode && r.success == st.success && r.id == st.id
    ensures reply.Fetched? ==> r.caseData == Some(reply.c) && r.form == FormOf(reply.c) && r.error == st.error
    ensures reply.FetchFailed? ==>
      r.caseData == st.caseData && r.form == st.form && r.error == Some(ErrorText(reply.detail, FetchFallback))
  {
    match reply
    case Fetched(c) => st.(caseData := Some(c), form := FormOf(c), loading := false)
    case FetchFailed(d) => st.(error := Some(ErrorText(d, FetchFallback)), loading := false)
  }

  /** "Edit Case": only the mode changes; the form keeps what it holds. */
  function StartEdit(st: DetailScreen): (r: DetailScreen)
    ensures r.mode == Editing && r.form == st.form && r.caseData == st.caseData
    ensures r == st.(mode := Editing)
  {
    st.(mode := Editing)
  }

  /** The status select changes. */
  function EditStatus(st: DetailScreen, v: string): (r: DetailScreen)
    ensures r.form == EditForm(v, st.form.notes)
    ensures r.id == st.id && r.caseData == st.caseData && r.mode == st.mode
    ensures r.loading == st.loading && r.error == st.error && r.success == st.success
  {
    st.(form := st.form.(status := v))
  }

  /** The notes text area changes. */
  function EditNotes(st: DetailScreen, v: string): (r: DetailScreen)
    ensures r.form == EditForm(st.form.status, v)
    ensures r.id == st.id && r.caseData == st.caseData && r.mode == st.mode
    ensures r.loading == st.loading && r.error == st.error && r.success == st.success
  {
    st.(form := st.form.(notes := v))
  }

  /** The fields of the form that differ from the fetched case; a missing note compares as `""`. */
  function Diff(c: Case, f: EditForm): (b: UpdateBody)
    ensures b.status.Some? <==> f.status != c.status
    ensures b.notes.Some? <==> f.notes != NotesText(c.notes)
    ensures b.status.Some? ==> b.status.value == f.status
    ensures b.notes.Some? ==> b.notes.value == f.notes
  {
    UpdateBody(
      if f.status != c.status then Some(f.status) else None,
      if f.notes != NotesText(c.notes) then Some(f.notes) else None)
  }

  /** Clearing a stored note sends `""`, never `null`. */
  lemma ClearedNoteIsSentEmpty(c: Case, f: EditForm)
    requires c.notes.Some? && c.notes.value != "" && f.notes == ""
    ensures Diff(c, f).notes == Some("")
  {
  }

  /** The fetched case's own form has nothing to save. */
  lemma FormOfHasNoDiff(c: Case)
    ensures Diff(c, FormOf(c)).IsEmpty()
  {
  }

  /**
   * "Save Changes". Both messages are cleared first; an empty diff is
   * reported without a request. Without a fetched case the comparison
   * throws, which the handler reports as its own failure.
   */
  function Submit(st: DetailScreen): (r: (DetailScreen, Command))
    ensures r.0.success.None? && r.0.mode == st.mode && r.0.form == st.form && r.0.caseData == st.caseData
    ensures r.0.id == st.id && r.0.loading == st.loading
    ensures st.caseData.None? ==> r.1 == NoCall && r.0.error == Some(UpdateFallback)
    ensures st.caseData.Some? ==>
      var b := Diff(st.caseData.value, st.form);
      && (b.IsEmpty() ==> r.1 == NoCall && r.0.error == Some(NoChanges))
      && (!b.IsEmpty() ==> r.1 == PatchCase(CasePath(st.id), b) && r.0.error.None?)
  {
    var cleared := st.(error := None, success := None);
    match st.caseData
    case None => (cleared.(error := Some(UpdateFallback)), NoCall)
    case Some(c) =>
      var b := Diff(c, st.form);
      if b.IsEmpty() then (cleared.(error := Some(NoChanges)), NoCall)
      else (cleared, PatchCase(CasePath(st.id), b))
  }

  /** Saving issues a request exactly when the form differs from the fetched case. */
  lemma SubmitCallsIffChanged(st: DetailScreen)
    requires st.caseData.Some?
    ensures Submit(st).1.PatchCase? <==> st.form != FormOf(st.caseData.value)
  {
  }

  datatype UpdateReply = Updated | UpdateFailed(detail: Option<string>)

  /** The reply to `updateCase`: success reports, leaves editing and re-fetches. */
  function OnUpdated(st: DetailScreen, reply: UpdateReply): (r: (DetailScreen, Command))
    ensures reply.Updated? ==>
      && r.0.success == Some(Saved) && r.0.mode == Viewing && r.0.loading
      && r.0 == st.(success := Some(Saved), mode := Viewing, loading := true, error := None)
      && r.1 == FetchCase(CasePath(st.id))
    ensures reply.UpdateFailed? ==>
      r.0 == st.(error := Some(ErrorText(reply.detail, UpdateFallback))) && r.1 == NoCall
  {
    match reply
    case Updated => StartFetch(st.(success := Some(Saved), mode := Viewing))
    case UpdateFailed(d) => (st.(error := Some(ErrorText(d, UpdateFallback))), NoCall)
  }

  /**
   * A save that succeeds but whose re-fetch fails leaves the screen viewing
   * the old case while the form holds the saved values; "Edit Case" then
   * opens on those values, not on the case shown.
   */
  lemma FailedRefetchKeepsSavedForm(st: DetailScreen, d: Option<string>)
    ensures var viewing := OnFetched(OnUpdated(st, Updated).0, FetchFailed(d));
      && viewing.mode == Viewing && viewing.caseData == st.caseData
      && StartEdit(viewing).form == st.form
  {
  }

  /** "Cancel": back to viewing with the fetched values and no messages. */
  function Cancel(st: DetailScreen): (r: DetailScreen)
    requires st.caseData.Some?
    ensures r.mode == Viewing && r.form == FormOf(st.caseData.value)
    ensures r.error.None? && r.success.None?
    ensures r.caseData == st.caseData && r.loading == st.loading && r.id == st.id
  {
    st.(mode := Viewing, form := FormOf(st.caseData.value), error := None, success := None)
  }

  /** Whatever was edited, saving right after a cancel has nothing to send. */
  lemma CancelDiscardsEdits(st: DetailScreen)
    requires st.caseData.Some?
    ensures Submit(StartEdit(Cancel(st))).1 == NoCall
    ensures Submit(StartEdit(Cancel(st))).0.error == Some(NoChanges)
  {
    FormOfHasNoDiff(st.caseData.value);
  }

  /** The card under the header: the read-only view or the edit form. */
  datatype Card = ViewCard(c: Case, badge: string) | EditCard(form: EditForm)

  datatype DetailView =
    | LoadingView
    | ErrorPage(message: string)
    | CasePage(error: Option<string>, success: Option<string>, card: Option<Card>)

  /** What the screen shows: the full-page error only when nothing has loaded. */
  function Render(st: DetailScreen): (v: DetailView)
    ensures v.LoadingView? <==> st.loading
    ensures v.ErrorPage? <==> !st.loading && st.error.Some? && st.caseData.None?
    ensures v.ErrorPage? ==> v.message == st.error.value
    ensures v.CasePage? ==> v.error == st.error && v.success == st.success
    ensures v.CasePage? ==> (v.card.Some? <==> st.caseData.Some?)
    ensures v.CasePage? && v.card.Some? ==> (v.card.value.EditCard? <==> st.mode == Editing)
  {
    if st.loading then LoadingView
    else if st.error.Some? && st.caseData.None? then ErrorPage(st.error.value)
    else
      var card := match st.caseData
        case None => None
        case Some(c) =>
          if st.mode == Editing then Some(EditCard(st.form)) else Some(ViewCard(c, StatusClass(c.status)));
      CasePage(st.error, st.success, card)
  }

  /** Reading a case and saving it both address the path of the route's id. */
  lemma ReadAndSaveShareThePath(st: DetailScreen)
    requires st.caseData.Some? && st.form != FormOf(st.caseData.value)
    ensures Submit(st).1.path == StartFetch(st).1.path == CasesRoute + "/" + st.id
  {
  }
}

=== FILE: case_list.dfy ===
/**
 * The case list screen (frontend/src/pages/CaseList.jsx): the filter
 * record, the re-fetch a filter change causes, and which view the fetched
 * cases select.
 */
module CaseListScreen {
  import opened Wrappers
  import opened Schemas
  import opened Models
  import opened Api
  import opened Ui
  import opened Numerals

  datatype FilterKey = StatusFilter | SortByFilter | OrderFilter

  /** The three filter selects; `status == ""` is "All Statuses". */
  datatype Filters = Filters(status: string, sortBy: string, order: string)

  const InitialFilters: Filters := Filters("", "due_date", "asc")

  function Get(f: Filters, k: FilterKey): string {
    match k
    case StatusFilter => f.status
    case SortByFilter => f.sortBy
    case OrderFilter => f.order
  }

  /** `handleFilterChange(key, value)`: one key replaced, the other two kept. */
  function HandleFilterChange(f: Filters, k: FilterKey, v: string): (r: Filters)
    ensures Get(r, k) == v
    ensures forall k' :: k' != k ==> Get(r, k') == Get(f, k')
  {
    match k
    case StatusFilter => f.(status := v)
    case SortByFilter => f.(sortBy := v)
    case OrderFilter => f.(order := v)
  }

  /** The filters as `getCases` receives them. */
  function ToParams(f: Filters): Params {
    Params(f.status, f.sortBy, f.order)
  }

  /** The values the three selects offer. */
  predicate Selectable(f: Filters) {
    && (f.status == "" || IsStatus(f.status))
    && (f.sortBy == "due_date" || f.sortBy == "invoice_date")
    && (f.order == "asc" || f.order == "desc")
  }

  /** The value each select's options offer for its key. */
  predicate Offered(k: FilterKey, v: string) {
    match k
    case StatusFilter => v == "" || IsStatus(v)
    case SortByFilter => v == "due_date" || v == "invoice_date"
    case OrderFilter => v == "asc" || v == "desc"
  }

  /** Choosing an offered option keeps every select on an offered value. */
  lemma ChangeKeepsSelectable(f: Filters, k: FilterKey, v: string)
    requires Selectable(f) && Offered(k, v)
    ensures Selectable(HandleFilterChange(f, k, v))
  {
  }

  datatype ListScreen = ListScreen(filters: Filters, cases: seq<Case>, loading: bool, error: Option<string>)

  /** A request the screen issues. */
  datatype Fetch = NoFetch | FetchCases(path: string)

  /** The screen as `fetchCases` leaves it while its request is out. */
  function StartFetch(st: ListScreen): (r: (ListScreen, Fetch))
    ensures r.0 == st.(loading := true, error := None)
    ensures r.1 == FetchCases(CasesPath(ToParams(st.filters)))
  {
    (st.(loading := true, error := None), FetchCases(CasesPath(ToParams(st.filters))))
  }

  /** The screen on mount: initial filters, no cases, and the first fetch under way. */
  function Mount(): (r: (ListScreen, Fetch))
    ensures r.0.filters == InitialFilters && r.0.cases == [] && r.0.loading && r.0.error.None?
    ensures r.1 == FetchCases(CasesPath(ToParams(InitialFilters)))
  {
    StartFetch(ListScreen(InitialFilters, [], true, None))
  }

  lemma InitialPairs()
    ensures QueryPairs(ToParams(InitialFilters)) == [("sort_by", "due_date"), ("order", "asc")]
  {
    assert Pick("", "status") == [];
  }

  lemma InitialQueryString()
    ensures QueryString([("sort_by", "due_date"), ("order", "asc")]) == "sort_by=due_date&order=asc"
  {
    var ps := [("sort_by", "due_date"), ("order", "asc")];
    assert ps[1..] == [("order", "asc")];
    assert EncodePair(("order", "asc")) == "order=asc";
    assert EncodePair(("sort_by", "due_date")) == "sort_by=due_date";
  }

  /** The first listing asks for due-date ascending, with no status parameter. */
  lemma MountQuery()
    ensures Mount().1 == FetchCases("/cases?sort_by=due_date&order=asc")
  {
    var p := ToParams(InitialFilters);
    var q := "sort_by=due_date&order=asc";
    InitialPairs();
    InitialQueryString();
    var path := CasesPath(p);
    assert path != CasesRoute;
    assert path == CasesRoute + "?" + q;
    LiteralPath(q);
  }

  lemma LiteralPath(q: string)
    requires q == "sort_by=due_date&order=asc"
    ensures CasesRoute + "?" + q == "/cases?sort_by=due_date&order=asc"
  {
    assert CasesRoute + "?" == "/cases?";
    assert "/cases?" + "sort_by=due_date&order=asc" == "/cases?sort_by=due_date&order=asc";
  }

  /**
   * A select changes one filter. The effect depends on the three filter
   * values, so a fetch follows exactly when the value really changed.
   */
  function ChangeFilter(st: ListScreen, k: FilterKey, v: string): (r: (ListScreen, Fetch))
    ensures r.0.filters == HandleFilterChange(st.filters, k, v)
    ensures r.1.FetchCases? <==> Get(st.filters, k) != v
    ensures r.1.FetchCases? ==>
      r.1.path == CasesPath(ToParams(r.0.filters)) && r.0.loading && r.0.error.None? && r.0.cases == st.cases
    ensures r.1.NoFetch? ==> r.0 == st
  {
    var f := HandleFilterChange(st.filters, k, v);
    if f == st.filters then (st, NoFetch)
    else StartFetch(st.(filters := f))
  }

  datatype CasesReply = Loaded(cases: seq<Case>) | Failed(detail: Option<string>)

  /** A listing reply arrives: success replaces the cases, failure keeps the old ones and reports. */
  function OnCasesReply(st: ListScreen, reply: CasesReply): (r: ListScreen)
    ensures !r.loading && r.filters == st.filters
    ensures reply.Loaded? ==> r.cases == reply.cases && r.error == st.error
    ensures reply.Failed? ==> r.cases == st.cases && r.error == Some(ErrorText(reply.detail, "Failed to fetch cases"))
  {
    match reply
    case Loaded(cs) => st.(cases := cs, loading := false)
    case Failed(d) => st.(error := Some(ErrorText(d, "Failed to fetch cases")), loading := false)
  }

  /** One table row: invoice number, status badge class and detail link. */
  datatype Row = Row(invoiceNumber: string, status: string, badge: string, link: string)

  function RowOf(c: Case): (row: Row)
    ensures row.invoiceNumber == c.invoiceNumber && row.status == c.status
    ensures row.badge == StatusClass(c.status) && IsStatusClass(row.badge)
    ensures row.link == CasePath(IntToString(c.id))
  {
    Row(c.invoiceNumber, c.status, StatusClass(c.status), CasePath(IntToString(c.id)))
  }

  datatype ListBody = EmptyState | Table(rows: seq<Row>)
  datatype ListView = LoadingView | ListPage(error: Option<string>, body: ListBody)

  /** What the screen shows. */
  function Render(st: ListScreen): (v: ListView)
    ensures v.LoadingView? <==> st.loading
    ensures v.ListPage? ==> v.error == st.error
    ensures v.ListPage? ==> (v.body.EmptyState? <==> |st.cases| == 0)
    ensures v.ListPage? && v.body.Table? ==>
      |v.body.rows| == |st.cases| && forall i :: 0 <= i < |st.cases| ==> v.body.rows[i] == RowOf(st.cases[i])
  {
    if st.loading then LoadingView
    else if |st.cases| == 0 then ListPage(st.error, EmptyState)
    else ListPage(st.error, Table(seq(|st.cases|, i requires 0 <= i < |st.cases| => RowOf(st.cases[i]))))
  }

  /** Every row links to the detail route of its own case. */
  lemma RowLinkNamesCase(c: Case)
    ensures var link := RowOf(c).link;
      link[..|CasesRoute| + 1] == CasesRoute + "/"
      && ParseInt(link[|CasesRoute| + 1..]) == Some(c.id)
  {
    var link := RowOf(c).link;
    assert link[|CasesRoute| + 1..] == IntToString(c.id);
    ParseIntToString(c.id);
  }
}

=== FILE: endpoints.dfy ===
/**
 * The request handlers of the backend (backend/main.py) as pure functions
 * on the store. Each takes the request after JSON decoding, applies the
 * schema validation FastAPI runs first (a 422 reply), then the handler's
 * own checks (400 or 404 replies), and returns the new store with the
 * reply. A failed request leaves the store as it was.
 */
module Endpoints {
  import opened Wrappers
  import opened Schemas
  import opened Models
  import opened Listing

  /** An error reply: an HTTPException, or request validation naming the bad fields. */
  datatype ApiError =
    | HttpError(code: int, detail: string)
    | Unprocessable(fields: seq<string>)
  {
    function Code(): int {
      match this
      case HttpError(code, _) => code
      case Unprocessable(_) => 422
    }
  }

  const EmailExists: ApiError := HttpError(400, "Email already exists")
  const ClientNotFound: ApiError := HttpError(404, "Client not found")
  const InvoiceExists: ApiError := HttpError(400, "Invoice number already exists")
  const CaseNotFound: ApiError := HttpError(404, "Case not found")
  /** What an exception the handler does not catch turns into. */
  const InternalError: ApiError := HttpError(500, "Internal Server Error")

  /** The store after a request, and the reply. */
  datatype Reply<+T> = Reply(store: Store, body: Result<T, ApiError>)

  // ---------------------------------------------------------------- clients

  /** The row `POST /clients` stores for a validated request. */
  function NewClient(id: int, req: ClientRequest): Client {
    Client(id, req.clientName, req.companyName, req.city, req.contactPerson, req.phone, req.email)
  }

  /** `POST /clients`. */
  function CreateClient(s: Store, req: ClientRequest, isEmail: string -> bool): (r: Reply<Client>)
    ensures r.body.Err? ==> r.store == s
    ensures r.body == Err(Unprocessable(ClientErrors(req, isEmail))) <==> !ValidClient(req, isEmail)
    ensures r.body == Err(EmailExists) <==> ValidClient(req, isEmail) && EmailTaken(s.clients, req.email)
    ensures r.body.Ok? <==> ValidClient(req, isEmail) && !EmailTaken(s.clients, req.email)
    ensures r.body.Ok? ==>
      && r.body.value == NewClient(s.nextClientId, req)
      && r.store == s.(clients := s.clients + [r.body.value], nextClientId := s.nextClientId + 1)
  {
    var errs := ClientErrors(req, isEmail);
    if errs != [] then Reply(s, Err(Unprocessable(errs)))
    else if EmailTaken(s.clients, req.email) then Reply(s, Err(EmailExists))
    else
      var c := NewClient(s.nextClientId, req);
      Reply(s.(clients := s.clients + [c], nextClientId := s.nextClientId + 1), Ok(c))
  }

  /** `GET /clients`: every stored client, each once. */
  function ListClients(s: Store): (r: seq<Client>)
    requires Inv(s)
    ensures multiset(r) == multiset(s.clients)
    ensures forall i, j :: 0 <= i < j < |r| ==> r[i].id != r[j].id && r[i].email != r[j].email
  {
    s.clients
  }

  // ------------------------------------------------------------------ cases

  /** The row `POST /cases` stores for a validated request. */
  function NewCase(id: int, req: CaseRequest): Case {
    Case(id, req.clientId, req.invoiceNumber, req.amountCents, req.invoiceDate, req.dueDate,
         req.status, FieldValue(req.notes))
  }

  /** `POST /cases`: the client check comes before the invoice-number check. */
  function CreateCase(s: Store, req: CaseRequest): (r: Reply<Case>)
    ensures r.body.Err? ==> r.store == s
    ensures r.body == Err(Unprocessable(CaseErrors(req))) <==> !ValidCase(req)
    ensures r.body == Err(ClientNotFound) <==> ValidCase(req) && !HasClient(s.clients, req.clientId)
    ensures r.body == Err(InvoiceExists) <==>
      ValidCase(req) && HasClient(s.clients, req.clientId) && InvoiceTaken(s.cases, req.invoiceNumber)
    ensures r.body.Ok? <==>
      ValidCase(req) && HasClient(s.clients, req.clientId) && !InvoiceTaken(s.cases, req.invoiceNumber)
    ensures r.body.Ok? ==>
      && r.body.value == NewCase(s.nextCaseId, req)
      && r.store == s.(cases := s.cases + [r.body.value], nextCaseId := s.nextCaseId + 1)
  {
    var errs := CaseErrors(req);
    if errs != [] then Reply(s, Err(Unprocessable(errs)))
    else if FindClient(s.clients, req.clientId).None? then Reply(s, Err(ClientNotFound))
    else if InvoiceTaken(s.cases, req.invoiceNumber) then Reply(s, Err(InvoiceExists))
    else
      var c := NewCase(s.nextCaseId, req);
      Reply(s.(cases := s.cases + [c], nextCaseId := s.nextCaseId + 1), Ok(c))
  }

  /** The query string of `GET /cases`, after decoding; `None` is an absent parameter. */
  datatype ListQuery = ListQuery(status: Option<string>, sortBy: Option<string>, order: Option<string>)

  predicate IsSortColumn(v: string) { v == "due_date" || v == "invoice_date" }
  predicate IsOrder(v: string) { v == "asc" || v == "desc" }

  /** The query parameters that fail their patterns. */
  function QueryErrors(q: ListQuery): (errs: seq<string>)
    ensures errs == [] <==>
      && (q.status.Some? ==> IsStatus(q.status.value))
      && (q.sortBy.Some? ==> IsSortColumn(q.sortBy.value))
      && (q.order.Some? ==> IsOrder(q.order.value))
  {
    Report(q.status.Some? && !IsStatus(q.status.value), "status")
    + Report(q.sortBy.Some? && !IsSortColumn(q.sortBy.value), "sort_by")
    + Report(q.order.Some? && !IsOrder(q.order.value), "order")
  }

  /**
   * The ordering `list_cases` picks. `order` defaults to "asc"; without a
   * recognised `sort_by` the order is due_date ascending whatever `order` says.
   */
  function OrderingOf(sortBy: Option<string>, order: Option<string>): (o: (SortKey, Direction))
    ensures sortBy == Some("invoice_date") <==> o.0 == InvoiceDate
    ensures o.1 == Desc <==> IsSortColumn(sortBy.GetOr("")) && order == Some("desc")
  {
    var dir := if order.GetOr("asc") == "desc" then Desc else Asc;
    if sortBy == Some("due_date") then (DueDate, dir)
    else if sortBy == Some("invoice_date") then (InvoiceDate, dir)
    else (DueDate, Asc)
  }

  /** A case passes the status filter: a missing or empty status keeps every case. */
  predicate Selected(c: Case, status: Option<string>) {
    status.None? || status.value == "" || c.status == status.value
  }

  /** `GET /cases`. */
  function ListCases(s: Store, q: ListQuery): (r: Result<seq<Case>, ApiError>)
    ensures r.Ok? <==> QueryErrors(q) == []
    ensures r.Err? ==> r.error == Unprocessable(QueryErrors(q))
    ensures r.Ok? ==> forall c :: multiset(r.value)[c] == if Selected(c, q.status) then multiset(s.cases)[c] else 0
    ensures r.Ok? ==> Sorted(r.value, OrderingOf(q.sortBy, q.order).0, OrderingOf(q.sortBy, q.order).1)
  {
    var errs := QueryErrors(q);
    if errs != [] then Err(Unprocessable(errs))
    else
      var selected := if q.status.Some? && q.status.value != "" then WithStatus(s.cases, q.status.value) else s.cases;
      var (key, dir) := OrderingOf(q.sortBy, q.order);
      Ok(SortCases(selected, key, dir))
  }

  /** Without `sort_by` the listing is by due date ascending, even when `order` is "desc". */
  lemma DefaultOrderIsDueDateAscending(s: Store, status: Option<string>, order: Option<string>)
    requires QueryErrors(ListQuery(status, None, order)) == []
    ensures ListCases(s, ListQuery(status, None, order)).Ok?
    ensures forall i, j :: 0 <= i < j < |ListCases(s, ListQuery(status, None, order)).value| ==>
      var xs := ListCases(s, ListQuery(status, None, order)).value;
      xs[i].dueDate <= xs[j].dueDate
  {
    var xs := ListCases(s, ListQuery(status, None, order)).value;
    assert OrderingOf(None, order) == (DueDate, Asc);
    forall i, j | 0 <= i < j < |xs| ensures xs[i].dueDate <= xs[j].dueDate {
      assert InOrder(xs[i], xs[j], DueDate, Asc);
    }
  }

  /** A case with the client it refers to, as `GET /cases/{id}` returns it. */
  datatype CaseWithClient = CaseWithClient(item: Case, client: Client)

  /** `GET /cases/{id}`. */
  function GetCase(s: Store, id: int): (r: Result<CaseWithClient, ApiError>)
    requires Inv(s)
    ensures r.Err? <==> forall k :: 0 <= k < |s.cases| ==> s.cases[k].id != id
    ensures r.Err? ==> r.error == CaseNotFound
    ensures r.Ok? ==> r.value.item in s.cases && r.value.item.id == id
    ensures r.Ok? ==> r.value.client in s.clients && r.value.client.id == r.value.item.clientId
  {
    match FindCase(s.cases, id)
    case None => Err(CaseNotFound)
    case Some(k) =>
      var c := s.cases[k];
      assert HasClient(s.clients, c.clientId);
      var owner := FindClient(s.clients, c.clientId).value;
      Ok(CaseWithClient(c, owner))
  }

  /** The case with the supplied fields written over it (`setattr` per supplied field). */
  function Patch(c: Case, u: CaseUpdate): (r: Case)
    requires !u.status.Null?
    ensures r.id == c.id && r.clientId == c.clientId
    ensures r.invoiceNumber == c.invoiceNumber && r.amountCents == c.amountCents
    ensures r.invoiceDate == c.invoiceDate && r.dueDate == c.dueDate
    ensures u.status.Unset? ==> r.status == c.status
    ensures u.status.Given? ==> r.status == u.status.value
    ensures u.notes.Unset? ==> r.notes == c.notes
    ensures u.notes.Null? ==> r.notes.None?
    ensures u.notes.Given? ==> r.notes == Some(u.notes.value)
  {
    c.(status := if u.status.Given? then u.status.value else c.status,
       notes := if u.notes.Unset? then c.notes else FieldValue(u.notes))
  }

  /** `PATCH /cases/{id}`, with an explicit `null` status rejected as invalid. */
  function UpdateCase(s: Store, id: int, u: CaseUpdate): (r: Reply<Case>)
    ensures r.body.Err? ==> r.store == s
    ensures r.body.Err? ==> r.body.error.Code() == 404 || r.body.error.Code() == 422
    ensures r.body == Err(Unprocessable(UpdateErrors(u))) <==> UpdateErrors(u) != []
    ensures r.body == Err(CaseNotFound) <==>
      UpdateErrors(u) == [] && forall k :: 0 <= k < |s.cases| ==> s.cases[k].id != id
    ensures r.body.Ok? <==>
      UpdateErrors(u) == [] && exists k :: 0 <= k < |s.cases| && s.cases[k].id == id
    ensures r.body.Ok? ==>
      exists k :: 0 <= k < |s.cases| && s.cases[k].id == id && r.body.value == Patch(s.cases[k], u)
        && r.store == s.(cases := s.cases[k := r.body.value])
  {
    var errs := UpdateErrors(u);
    if errs != [] then Reply(s, Err(Unprocessable(errs)))
    else
      match FindCase(s.cases, id)
      case None => Reply(s, Err(CaseNotFound))
      case Some(k) =>
        var c := Patch(s.cases[k], u);
        Reply(s.(cases := s.cases[k := c]), Ok(c))
  }

  /**
   * `PATCH /cases/{id}` as written: an explicit `null` status passes
   * validation and is written into the NOT NULL `status` column, so the
   * commit fails and the request ends in an unhandled database error.
   */
  function UpdateCaseAsWritten(s: Store, id: int, u: CaseUpdate): (r: Reply<Case>)
    ensures r.body.Err? ==> r.store == s
    ensures !u.status.Null? ==> r == UpdateCase(s, id, u)
    ensures u.status.Null? && (exists k :: 0 <= k < |s.cases| && s.cases[k].id == id) ==> r.body == Err(InternalError)
    ensures UpdateErrorsAsWritten(u) == [] && (forall k :: 0 <= k < |s.cases| ==> s.cases[k].id != id) ==>
      r.body == Err(CaseNotFound)
    ensures r.store == UpdateCase(s, id, u).store
  {
    var errs := UpdateErrorsAsWritten(u);
    if errs != [] then Reply(s, Err(Unprocessable(errs)))
    else
      match FindCase(s.cases, id)
      case None => Reply(s, Err(CaseNotFound))
      case Some(k) =>
        if u.status.Null? then Reply(s, Err(InternalError))
        else
          var c := Patch(s.cases[k], u);
          Reply(s.(cases := s.cases[k := c]), Ok(c))
  }
}

=== FILE: integration.dfy ===
/**
 * What the frontend sends, as the backend receives it: the list screen's
 * query, the detail screen's partial update, and the creation screen's
 * payload, each followed through the corresponding handler.
 */
module Integration {
  import opened Wrappers
  import opened Schemas
  import opened Models
  import opened Listing
  import opened Endpoints
  import opened StoreInvariants
  import opened Numerals
  import opened Api
  import CaseListScreen
  import CaseDetailScreen
  import CaseCreateScreen

  // ------------------------------------------------------------ listing

  /**
   * The parameters read from the decoded query pairs. `Lookup` takes the
   * first pair of a key where the framework takes the last; the two agree
   * here because `QueryPairs` never repeats a key.
   */
  function QueryOf(ps: seq<Pair>): ListQuery {
    ListQuery(Lookup(ps, "status"), Lookup(ps, "sort_by"), Lookup(ps, "order"))
  }

  /** The ordering a select value names. */
  function KeyOf(sortBy: string): SortKey {
    if sortBy == "invoice_date" then InvoiceDate else DueDate
  }

  function DirectionOf(order: string): Direction {
    if order == "desc" then Desc else Asc
  }

  /** None of the words the selects offer contains `&` or `=`. */
  lemma OfferedWordPlain(w: string)
    requires w == "" || IsStatus(w) || w == "due_date" || w == "invoice_date" || w == "asc" || w == "desc"
      || w == "status" || w == "sort_by" || w == "order"
    ensures '&' !in w && '=' !in w
  {
  }

  lemma PickPlain(v: string, key: string)
    requires '&' !in v && '&' !in key && '=' !in key
    ensures Plain(Pick(v, key))
  {
  }

  lemma PlainConcat(a: seq<Pair>, b: seq<Pair>)
    requires Plain(a) && Plain(b)
    ensures Plain(a + b)
  {
    forall k | 0 <= k < |a + b| ensures '&' !in (a + b)[k].0 && '&' !in (a + b)[k].1 && '=' !in (a + b)[k].0 {
      if k < |a| { assert (a + b)[k] == a[k]; } else { assert (a + b)[k] == b[k - |a|]; }
    }
  }

  lemma SelectablePairsArePlain(f: CaseListScreen.Filters)
    requires CaseListScreen.Selectable(f)
    ensures Plain(QueryPairs(CaseListScreen.ToParams(f)))
  {
    OfferedWordPlain(f.status);
    OfferedWordPlain(f.sortBy);
    OfferedWordPlain(f.order);
    OfferedWordPlain("status");
    OfferedWordPlain("sort_by");
    OfferedWordPlain("order");
    PickPlain(f.status, "status");
    PickPlain(f.sortBy, "sort_by");
    PickPlain(f.order, "order");
    PlainConcat(Pick(f.status, "status"), Pick(f.sortBy, "sort_by"));
    PlainConcat(Pick(f.status, "status") + Pick(f.sortBy, "sort_by"), Pick(f.order, "order"));
  }

  /**
   * Whatever the three selects show, the backend accepts the request the
   * list screen sends and answers with the chosen status's cases, ordered
   * by the chosen date column in the chosen direction.
   */
  lemma ListScreenQueryIsServed(s: Store, f: CaseListScreen.Filters)
    requires CaseListScreen.Selectable(f)
    ensures var (route, ps) := RequestTarget(CasesPath(CaseListScreen.ToParams(f)));
      && route == CasesRoute
      && ListCases(s, QueryOf(ps)).Ok?
      && (forall c :: multiset(ListCases(s, QueryOf(ps)).value)[c] ==
            if f.status == "" || c.status == f.status then multiset(s.cases)[c] else 0)
      && Sorted(ListCases(s, QueryOf(ps)).value, KeyOf(f.sortBy), DirectionOf(f.order))
  {
    var p := CaseListScreen.ToParams(f);
    SelectablePairsArePlain(f);
    CasesPathRoundTrip(p);
    QueryPairsLookup(p);
    var q := QueryOf(QueryPairs(p));
    assert q == ListQuery(NonEmpty(f.status), Some(f.sortBy), Some(f.order));
    assert OrderingOf(q.sortBy, q.order) == (KeyOf(f.sortBy), DirectionOf(f.order));
  }

  // ------------------------------------------------------------- update

  /** The partial update the backend decodes from the detail screen's body. */
  function ToCaseUpdate(b: UpdateBody): (u: CaseUpdate)
    ensures !u.status.Null? && !u.notes.Null?
  {
    CaseUpdate(
      match b.status case Some(v) => Given(v) case None => Unset,
      match b.notes case Some(v) => Given(v) case None => Unset)
  }

  /** A valid update of a stored case succeeds, and reading the case back gives the patched row. */
  lemma PatchThenGet(s: Store, k: nat, u: CaseUpdate)
    requires Inv(s) && k < |s.cases| && UpdateErrors(u) == []
    ensures var r := UpdateCase(s, s.cases[k].id, u);
      && r.body.Ok?
      && GetCase(r.store, s.cases[k].id).Ok?
      && GetCase(r.store, s.cases[k].id).value.item == Patch(s.cases[k], u)
  {
    var c := s.cases[k];
    var r := UpdateCase(s, c.id, u);
    UpdateCaseKeepsInv(s, c.id, u);
    assert r.body.Ok?;
    var j :| 0 <= j < |s.cases| && s.cases[j].id == c.id && r.body.value == Patch(s.cases[j], u)
      && r.store == s.(cases := s.cases[j := r.body.value]);
    assert j == k;
    assert r.store.cases[k].id == c.id;
    var g := GetCase(r.store, c.id);
    assert g.value.item == r.body.value;
  }

  /**
   * Saving an edit and fetching again shows exactly what was in the form:
   * the backend's handler as written accepts the body, and the re-fetched
   * case's form equals the submitted one — including a cleared note,
   * stored as `""`.
   */
  lemma SaveThenFetchShowsForm(s: Store, k: nat, st: CaseDetailScreen.DetailScreen)
    requires Inv(s) && k < |s.cases|
    requires st.caseData == Some(s.cases[k])
    requires IsStatus(st.form.status)
    requires st.form != CaseDetailScreen.FormOf(s.cases[k])
    ensures CaseDetailScreen.Submit(st).1.PatchCase?
    ensures var u := ToCaseUpdate(CaseDetailScreen.Submit(st).1.body);
      && UpdateCaseAsWritten(s, s.cases[k].id, u).body.Ok?
      && GetCase(UpdateCaseAsWritten(s, s.cases[k].id, u).store, s.cases[k].id).Ok?
      && CaseDetailScreen.FormOf(GetCase(UpdateCaseAsWritten(s, s.cases[k].id, u).store, s.cases[k].id).value.item) == st.form
  {
    var c := s.cases[k];
    var u := ToCaseUpdate(CaseDetailScreen.Diff(c, st.form));
    assert UpdateErrors(u) == [];
    PatchThenGet(s, k, u);
    assert UpdateCaseAsWritten(s, c.id, u) == UpdateCase(s, c.id, u);
    assert CaseDetailScreen.FormOf(Patch(c, u)) == st.form;
  }

  // ------------------------------------------------------------- create

  /** The case request the backend decodes from a payload; a null or blank number is rejected. */
  function ToCaseRequest(p: CasePayload): (r: Option<CaseRequest>)
    ensures r.Some? <==> p.clientId.Some? && p.amountCents.Some? && p.invoiceDate.Some? && p.dueDate.Some?
    ensures r.Some? ==> r.value.clientId == p.clientId.value && r.value.notes != Unset
  {
    if p.clientId.Some? && p.amountCents.Some? && p.invoiceDate.Some? && p.dueDate.Some? then
      Some(CaseRequest(p.clientId.value, p.invoiceNumber, p.amountCents.value, p.invoiceDate.value,
                       p.dueDate.value, p.status,
                       match p.notes case Some(v) => Given(v) case None => Null))
    else None
  }

  /**
   * A form left on its preselected client never gets "Client not found":
   * the client list came from the same database, in whatever order.
   */
  lemma PreselectedClientIsKnown(s: Store, st: CaseCreateScreen.CreateScreen, amount: int, invoiceDate: int, dueDate: int)
    requires Inv(s) && |s.clients| > 0
    ensures var loaded := CaseCreateScreen.OnClients(st, CaseCreateScreen.ClientsLoaded(ListClients(s)));
      var form := loaded.form.(amountCents := Some(amount), invoiceDate := Some(invoiceDate), dueDate := Some(dueDate));
      var req := ToCaseRequest(CaseCreateScreen.Payload(form));
      && req.Some?
      && req.value.clientId == ListClients(s)[0].id
      && CreateCase(s, req.value).body != Err(ClientNotFound)
  {
    var cs := ListClients(s);
    assert |cs| > 0 by { assert |multiset(cs)| == |multiset(s.clients)|; }
    CaseCreateScreen.PreselectedIdRoundTrip(st, cs);
    var loaded := CaseCreateScreen.OnClients(st, CaseCreateScreen.ClientsLoaded(ListClients(s)));
    var form := loaded.form.(amountCents := Some(amount), invoiceDate := Some(invoiceDate), dueDate := Some(dueDate));
    assert CaseCreateScreen.Payload(form).clientId == CaseCreateScreen.Payload(loaded.form).clientId;
    assert cs[0] in multiset(s.clients);
    assert HasClient(s.clients, cs[0].id);
  }

  /** A case created from the form opens on the detail screen with the form's status and notes. */
  lemma CreatedCaseShowsFormValues(s: Store, f: CaseCreateScreen.CreateForm, req: CaseRequest)
    requires Inv(s)
    requires ToCaseRequest(CaseCreateScreen.Payload(f)) == Some(req)
    requires ValidCase(req) && HasClient(s.clients, req.clientId) && !InvoiceTaken(s.cases, req.invoiceNumber)
    ensures var r := CreateCase(s, req);
      && r.body.Ok?
      && CaseDetailScreen.FormOf(r.body.value) == CaseDetailScreen.EditForm(f.status, f.notes)
      && GetCase(r.store, r.body.value.id).Ok?
      && GetCase(r.store, r.body.value.id).value.item == r.body.value
      && CaseDetailScreen.FormOf(GetCase(r.store, r.body.value.id).value.item) == CaseDetailScreen.EditForm(f.status, f.notes)
  {
    CaseCreateScreen.NotesRoundTrip(f.notes);
    var r := CreateCase(s, req);
    var c := r.body.value;
    CreateCaseKeepsInv(s, req);
    var n := |s.cases|;
    assert r.store.cases == s.cases + [c];
    assert r.store.cases[n] == c;
    var g := GetCase(r.store, c.id);
    assert g.Ok?;
    var i :| 0 <= i < |r.store.cases| && r.store.cases[i] == g.value.item;
    assert i == n;
  }


}

=== FILE: invariants.dfy ===
/**
 * The table constraints survive every request: unique emails, unique
 * invoice numbers, unique keys below the next autoincrement value, and
 * every case referring to an existing client.
 */
module StoreInvariants {
  import opened Wrappers
  import opened Schemas
  import opened Models
  import opened Endpoints

  /** Appending a client keeps every existing reference resolvable. */
  lemma ReferencesGrow(s: Store, t: Store)
    requires References(s)
    requires t.cases == s.cases
    requires |s.clients| <= |t.clients| && t.clients[..|s.clients|] == s.clients
    ensures References(t)
  {
    forall i | 0 <= i < |t.cases| ensures HasClient(t.clients, t.cases[i].clientId) {
      var k :| 0 <= k < |s.clients| && s.clients[k].id == s.cases[i].clientId;
      assert t.clients[k] == t.clients[..|s.clients|][k];
    }
  }

  lemma CreateClientKeepsInv(s: Store, req: ClientRequest, isEmail: string -> bool)
    requires Inv(s)
    ensures Inv(CreateClient(s, req, isEmail).store)
  {
    var r := CreateClient(s, req, isEmail);
    if r.body.Ok? {
      var t := r.store;
      assert t.clients == s.clients + [r.body.value];
      assert ValidClient(req, isEmail) && !EmailTaken(s.clients, req.email);
      forall i, j | 0 <= i < j < |t.clients|
        ensures t.clients[i].email != t.clients[j].email
      {
        if j == |s.clients| {
          assert s.clients[i].email != req.email;
        }
      }
      assert ClientsOk(t);
      assert CasesOk(t) by { assert t.cases == s.cases && t.nextCaseId == s.nextCaseId; }
      ReferencesGrow(s, t);
    }
  }

  /** Appending a valid case row under the next key keeps the constraints. */
  lemma AppendCaseKeepsInv(s: Store, c: Case)
    requires Inv(s) && CaseRowOk(c) && c.id == s.nextCaseId
    requires HasClient(s.clients, c.clientId) && !InvoiceTaken(s.cases, c.invoiceNumber)
    ensures Inv(s.(cases := s.cases + [c], nextCaseId := s.nextCaseId + 1))
  {
    var t := s.(cases := s.cases + [c], nextCaseId := s.nextCaseId + 1);
    assert ClientsOk(t) by { assert t.clients == s.clients && t.nextClientId == s.nextClientId; }
    forall i, j | 0 <= i < j < |t.cases|
      ensures t.cases[i].invoiceNumber != t.cases[j].invoiceNumber
    {
      if j == |s.cases| {
        assert s.cases[i].invoiceNumber != c.invoiceNumber;
      }
    }
    assert CasesOk(t);
    forall i | 0 <= i < |t.cases| ensures HasClient(t.clients, t.cases[i].clientId) {
      if i < |s.cases| {
        assert t.cases[i] == s.cases[i];
      }
    }
  }

  lemma CreateCaseKeepsInv(s: Store, req: CaseRequest)
    requires Inv(s)
    ensures Inv(CreateCase(s, req).store)
  {
    var r := CreateCase(s, req);
    if r.body.Ok? {
      var c := NewCase(s.nextCaseId, req);
      assert ValidCase(req) && HasClient(s.clients, req.clientId) && !InvoiceTaken(s.cases, req.invoiceNumber);
      assert CaseRowOk(c);
      AppendCaseKeepsInv(s, c);
    }
  }

  /** Rewriting one case row in place, keys and references kept, keeps the constraints. */
  lemma ReplaceCaseKeepsInv(s: Store, k: nat, c: Case)
    requires Inv(s) && k < |s.cases| && CaseRowOk(c)
    requires c.id == s.cases[k].id && c.clientId == s.cases[k].clientId
    requires c.invoiceNumber == s.cases[k].invoiceNumber
    ensures Inv(s.(cases := s.cases[k := c]))
  {
    var t := s.(cases := s.cases[k := c]);
    assert ClientsOk(t) by { assert t.clients == s.clients && t.nextClientId == s.nextClientId; }
    forall i | 0 <= i < |t.cases|
      ensures t.cases[i].id == s.cases[i].id
      ensures t.cases[i].clientId == s.cases[i].clientId
      ensures t.cases[i].invoiceNumber == s.cases[i].invoiceNumber
      ensures CaseRowOk(t.cases[i])
    {
    }
    assert CasesOk(t);
    assert References(t);
  }

  lemma UpdateCaseKeepsInv(s: Store, id: int, u: CaseUpdate)
    requires Inv(s)
    ensures Inv(UpdateCase(s, id, u).store)
  {
    if UpdateErrors(u) == [] {
      match FindCase(s.cases, id)
      case None =>
      case Some(k) =>
        var c := Patch(s.cases[k], u);
        assert CaseRowOk(c);
        ReplaceCaseKeepsInv(s, k, c);
    }
  }

  /**
   * The handler as written keeps the constraints too: its one extra
   * outcome, the server error on a null status, writes nothing.
   */
  lemma UpdateCaseAsWrittenKeepsInv(s: Store, id: int, u: CaseUpdate)
    requires Inv(s)
    ensures Inv(UpdateCaseAsWritten(s, id, u).store)
  {
    UpdateCaseKeepsInv(s, id, u);
  }

  /** A request the backend serves. */
  datatype Request =
    | PostClient(client: ClientRequest)
    | PostCase(newCase: CaseRequest)
    | PatchCase(id: int, update: CaseUpdate)
    | GetCases(query: ListQuery)
    | GetCaseById(caseId: int)
    | GetClients

  /** The store after one request, as the handlers are written; the reads leave it alone. */
  function Step(s: Store, req: Request, isEmail: string -> bool): Store {
    match req
    case PostClient(c) => CreateClient(s, c, isEmail).store
    case PostCase(c) => CreateCase(s, c).store
    case PatchCase(id, u) => UpdateCaseAsWritten(s, id, u).store
    case GetCases(_) => s
    case GetCaseById(_) => s
    case GetClients => s
  }

  lemma StepKeepsInv(s: Store, req: Request, isEmail: string -> bool)
    requires Inv(s)
    ensures Inv(Step(s, req, isEmail))
  {
    match req
    case PostClient(c) => CreateClientKeepsInv(s, c, isEmail);
    case PostCase(c) => CreateCaseKeepsInv(s, c);
    case PatchCase(id, u) => UpdateCaseAsWrittenKeepsInv(s, id, u);
    case GetCases(_) =>
    case GetCaseById(_) =>
    case GetClients =>
  }

  /** The store after a sequence of requests, served one at a time. */
  function Run(s: Store, reqs: seq<Request>, isEmail: string -> bool): Store
    decreases |reqs|
  {
    if |reqs| == 0 then s else Run(Step(s, reqs[0], isEmail), reqs[1..], isEmail)
  }

  lemma {:induction false} RunKeepsInv(s: Store, reqs: seq<Request>, isEmail: string -> bool)
    requires Inv(s)
    ensures Inv(Run(s, reqs, isEmail))
    decreases |reqs|
  {
    if |reqs| > 0 {
      StepKeepsInv(s, reqs[0], isEmail);
      RunKeepsInv(Step(s, reqs[0], isEmail), reqs[1..], isEmail);
    }
  }

  /** Every store the backend can reach from an empty database keeps the table constraints. */
  lemma ReachableStoresKeepInv(reqs: seq<Request>, isEmail: string -> bool)
    ensures Inv(Run(Empty, reqs, isEmail))
  {
    EmptyInv();
    RunKeepsInv(Empty, reqs, isEmail);
  }
}

/**
 * The one place the backend as written answers a well-formed request with
 * a server error: an explicit `null` status on an existing case.
 */
module NullStatus {
  import opened Wrappers
  import opened Schemas
  import opened Models
  import opened Endpoints

  /** As written, `{"status": null}` on any existing case ends in a 500 reply. */
  lemma AsWrittenNullStatusIsServerError(s: Store, id: int, notes: Field<string>)
    requires exists k :: 0 <= k < |s.cases| && s.cases[k].id == id
    ensures UpdateCaseAsWritten(s, id, CaseUpdate(Null, notes)).body == Err(InternalError)
    ensures UpdateCase(s, id, CaseUpdate(Null, notes)).body == Err(Unprocessable(["status"]))
  {
    var u := CaseUpdate(Null, notes);
    assert UpdateErrorsAsWritten(u) == [];
    assert FindCase(s.cases, id).Some?;
  }

  /** A concrete database where that request is possible. */
  const Witness: Store := Store(
    [Client(1, "Acme", "Acme Corp", "Metropolis", "J. Doe", "555-0100", "j@acme.test")],
    [Case(1, 1, "INV-1", 15000, 0, 30, StatusNew, None)],
    2, 2)

  lemma WitnessReachesServerError()
    ensures Inv(Witness)
    ensures UpdateCaseAsWritten(Witness, 1, CaseUpdate(Null, Unset)).body.error.Code() == 500
  {
    assert Witness.cases[0].id == 1;
    assert References(Witness) by {
      assert Witness.clients[0].id == Witness.cases[0].clientId;
    }
    AsWrittenNullStatusIsServerError(Witness, 1, Unset);
  }
}

=== FILE: listing.dfy ===
/**
 * The filtering and ordering `list_cases` asks of the database
 * (backend/main.py): keep the cases of one status, then order them by a
 * date column, ascending or descending.
 */
module Listing {
  import opened Models

  datatype SortKey = DueDate | InvoiceDate
  datatype Direction = Asc | Desc

  /** The date column a case is ordered by. */
  function DateOf(c: Case, key: SortKey): int {
    match key
    case DueDate => c.dueDate
    case InvoiceDate => c.invoiceDate
  }

  /** `a` may come before `b` under `ORDER BY key dir`. */
  predicate InOrder(a: Case, b: Case, key: SortKey, dir: Direction) {
    match dir
    case Asc => DateOf(a, key) <= DateOf(b, key)
    case Desc => DateOf(a, key) >= DateOf(b, key)
  }

  /** Every earlier case may come before every later one. */
  predicate Sorted(xs: seq<Case>, key: SortKey, dir: Direction) {
    forall i, j :: 0 <= i < j < |xs| ==> InOrder(xs[i], xs[j], key, dir)
  }

  /** The cases `WHERE status = st`, in stored order. */
  function WithStatus(xs: seq<Case>, st: string): (r: seq<Case>)
    ensures forall c :: multiset(r)[c] == if c.status == st then multiset(xs)[c] else 0
  {
    if |xs| == 0 then []
    else
      var rest := WithStatus(xs[1..], st);
      assert xs == [xs[0]] + xs[1..];
      if xs[0].status == st then [xs[0]] + rest else rest
  }

  /** Places `x` into the ordered `xs`, before the first case it may precede. */
  function Insert(x: Case, xs: seq<Case>, key: SortKey, dir: Direction): (r: seq<Case>)
    requires Sorted(xs, key, dir)
    ensures Sorted(r, key, dir)
    ensures multiset(r) == multiset(xs) + multiset{x}
    ensures forall k :: 0 <= k < |r| ==> r[k] == x || r[k] in xs
  {
    if |xs| == 0 then [x]
    else if InOrder(x, xs[0], key, dir) then [x] + xs
    else
      var rest := Insert(x, xs[1..], key, dir);
      assert xs == [xs[0]] + xs[1..];
      assert forall k :: 0 <= k < |rest| ==> InOrder(xs[0], rest[k], key, dir);
      [xs[0]] + rest
  }

  /** `xs` rearranged into `ORDER BY key dir` (stable insertion sort). */
  function SortCases(xs: seq<Case>, key: SortKey, dir: Direction): (r: seq<Case>)
    ensures Sorted(r, key, dir)
    ensures multiset(r) == multiset(xs)
  {
    if |xs| == 0 then []
    else
      assert xs == [xs[0]] + xs[1..];
      Insert(xs[0], SortCases(xs[1..], key, dir), key, dir)
  }
}

=== FILE: models.dfy ===
/**
 * The stored records (backend/models.py) and the table constraints the
 * database keeps: primary keys, `unique` columns, the foreign key from a
 * case to its client, and the column types the validated requests fit.
 */
module Models {
  import opened Wrappers
  import opened Schemas

  /** A row of `clients`. */
  datatype Client = Client(
    id: int,
    clientName: string,
    companyName: string,
    city: string,
    contactPerson: string,
    phone: string,
    email: string)

  /** A row of `cases`; `notes` is the one nullable user-supplied column. */
  datatype Case = Case(
    id: int,
    clientId: int,
    invoiceNumber: string,
    amountCents: int,
    invoiceDate: int,
    dueDate: int,
    status: string,
    notes: Option<string>)

  /**
   * Both tables, in insertion order, with the next value each
   * autoincrement key will hand out.
   */
  datatype Store = Store(
    clients: seq<Client>,
    cases: seq<Case>,
    nextClientId: int,
    nextCaseId: int)

  /** The database before any request. */
  const Empty: Store := Store([], [], 1, 1)

  /** Some stored client has key `id`. */
  predicate HasClient(clients: seq<Client>, id: int) {
    exists k :: 0 <= k < |clients| && clients[k].id == id
  }

  /** Some stored client uses `email`. */
  predicate EmailTaken(clients: seq<Client>, email: string) {
    exists k :: 0 <= k < |clients| && clients[k].email == email
  }

  /** Some stored case uses `invoiceNumber`. */
  predicate InvoiceTaken(cases: seq<Case>, invoiceNumber: string) {
    exists k :: 0 <= k < |cases| && cases[k].invoiceNumber == invoiceNumber
  }

  /** The columns of a client hold what ClientBase admits. */
  predicate ClientRowOk(c: Client) {
    && c.id > 0
    && LengthOk(c.clientName, MaxTextLength)
    && LengthOk(c.companyName, MaxTextLength)
    && LengthOk(c.city, MaxTextLength)
    && LengthOk(c.contactPerson, MaxTextLength)
    && LengthOk(c.phone, MaxPhoneLength)
  }

  /** The columns of a case hold what CaseCreate admits. */
  predicate CaseRowOk(c: Case) {
    && c.id > 0
    && c.clientId > 0
    && LengthOk(c.invoiceNumber, MaxInvoiceNumberLength)
    && c.amountCents > 0
    && IsStatus(c.status)
  }

  predicate ClientsOk(s: Store) {
    && s.nextClientId >= 1
    && (forall i :: 0 <= i < |s.clients| ==> ClientRowOk(s.clients[i]) && s.clients[i].id < s.nextClientId)
    && (forall i, j :: 0 <= i < j < |s.clients| ==> s.clients[i].id != s.clients[j].id)
    && (forall i, j :: 0 <= i < j < |s.clients| ==> s.clients[i].email != s.clients[j].email)
  }

  predicate CasesOk(s: Store) {
    && s.nextCaseId >= 1
    && (forall i :: 0 <= i < |s.cases| ==> CaseRowOk(s.cases[i]) && s.cases[i].id < s.nextCaseId)
    && (forall i, j :: 0 <= i < j < |s.cases| ==> s.cases[i].id != s.cases[j].id)
    && (forall i, j :: 0 <= i < j < |s.cases| ==> s.cases[i].invoiceNumber != s.cases[j].invoiceNumber)
  }

  /** Every case refers to an existing client. */
  predicate References(s: Store) {
    forall i :: 0 <= i < |s.cases| ==> HasClient(s.clients, s.cases[i].clientId)
  }

  /** The table constraints of the database. */
  predicate Inv(s: Store) {
    ClientsOk(s) && CasesOk(s) && References(s)
  }

  /** The client with key `id`, if any. */
  function FindClient(clients: seq<Client>, id: int): (r: Option<Client>)
    ensures r.Some? <==> HasClient(clients, id)
    ensures r.Some? ==> r.value in clients && r.value.id == id
  {
    if |clients| == 0 then None
    else if clients[0].id == id then Some(clients[0])
    else
      var r := FindClient(clients[1..], id);
      assert HasClient(clients[1..], id) ==> HasClient(clients, id) by {
        if HasClient(clients[1..], id) {
          var k :| 0 <= k < |clients[1..]| && clients[1..][k].id == id;
          assert clients[k + 1].id == id;
        }
      }
      r
  }

  /** The position of the case with key `id`, if any. */
  function FindCase(cases: seq<Case>, id: int): (r: Option<nat>)
    ensures r.Some? ==> r.value < |cases| && cases[r.value].id == id
    ensures r.None? ==> forall k :: 0 <= k < |cases| ==> cases[k].id != id
  {
    if |cases| == 0 then None
    else if cases[0].id == id then Some(0)
    else
      match FindCase(cases[1..], id)
      case None => None
      case Some(k) => Some(k + 1)
  }

  lemma EmptyInv()
    ensures Inv(Empty)
  {
  }
}

=== FILE: numerals.dfy ===
/**
 * Decimal text for integer ids as the frontend handles them: JavaScript's
 * `Number.prototype.toString` for integers, and `parseInt` read in base 10.
 */
module Numerals {
  import opened Wrappers

  predicate IsDigit(ch: char) { '0' <= ch <= '9' }

  predicate AllDigits(s: string) {
    forall k :: 0 <= k < |s| ==> IsDigit(s[k])
  }

  function DigitChar(d: nat): (ch: char)
    requires d < 10
    ensures IsDigit(ch)
  {
    "0123456789"[d]
  }

  function DigitValue(ch: char): (d: nat)
    requires IsDigit(ch)
    ensures d < 10
  {
    (ch as int - '0' as int) as nat
  }

  lemma DigitRoundTrip(d: nat)
    requires d < 10
    ensures DigitValue(DigitChar(d)) == d
  {
  }

  /** The value of a string of decimal digits, most significant first. */
  function DigitsValue(s: string): (v: nat)
    requires AllDigits(s)
    decreases |s|
  {
    if |s| == 0 then 0
    else DigitsValue(s[..|s| - 1]) * 10 + DigitValue(s[|s| - 1])
  }

  /** The decimal text of a non-negative integer, without leading zeros. */
  function NatToString(n: nat): (s: string)
    ensures |s| > 0 && AllDigits(s)
    ensures |s| > 1 ==> s[0] != '0'
    decreases n
  {
    if n < 10 then [DigitChar(n)] else NatToString(n / 10) + [DigitChar(n % 10)]
  }

  /**
   * `String(i)` for an id `i`. JavaScript writes every integer below
   * 10^21 this way, and ids stay far below that.
   */
  function IntToString(i: int): (s: string)
    ensures |s| > 0
    ensures s[0] == '-' <==> i < 0
    ensures AllDigits(if i < 0 then s[1..] else s)
  {
    if i < 0 then "-" + NatToString(-i) else NatToString(i)
  }

  /** The longest prefix of `s` made of decimal digits. */
  function DigitPrefix(s: string): (p: string)
    ensures AllDigits(p) && p <= s
    ensures |p| < |s| ==> !IsDigit(s[|p|])
  {
    if |s| > 0 && IsDigit(s[0]) then [s[0]] + DigitPrefix(s[1..]) else []
  }

  /** The value of the leading digits of `s`; `None` when there are none (`NaN`). */
  function ParseDigits(s: string): (r: Option<nat>)
    ensures r.Some? <==> |s| > 0 && IsDigit(s[0])
  {
    var p := DigitPrefix(s);
    if |p| == 0 then None else Some(DigitsValue(p))
  }

  /** `s` without its leading sign, if it has one. */
  function SignStripped(s: string): string {
    if |s| > 0 && (s[0] == '-' || s[0] == '+') then s[1..] else s
  }

  /**
   * `parseInt(s)` on a string without leading white space or a `0x` prefix:
   * an optional sign, then as many decimal digits as follow. Trailing
   * characters are ignored; no digits at all yields `NaN`, here `None`.
   */
  function ParseInt(s: string): (r: Option<int>)
    ensures r.Some? <==> var t := SignStripped(s); |t| > 0 && IsDigit(t[0])
    ensures r.Some? && |s| > 0 && s[0] == '-' ==> r.value <= 0
    ensures r.Some? && !(|s| > 0 && s[0] == '-') ==> r.value >= 0
  {
    match ParseDigits(SignStripped(s))
    case None => None
    case Some(v) => Some(if |s| > 0 && s[0] == '-' then -(v as int) else v as int)
  }

  lemma {:induction false} AllDigitsPrefix(s: string)
    requires AllDigits(s)
    ensures DigitPrefix(s) == s
    decreases |s|
  {
    if |s| > 0 {
      AllDigitsPrefix(s[1..]);
    }
  }

  lemma {:induction false} NatToStringValue(n: nat)
    ensures DigitsValue(NatToString(n)) == n
    decreases n
  {
    var s := NatToString(n);
    if n < 10 {
      DigitRoundTrip(n);
    } else {
      NatToStringValue(n / 10);
      assert s[..|s| - 1] == NatToString(n / 10);
      DigitRoundTrip(n % 10);
    }
  }

  /** Reading the text of a non-negative integer gives the integer back. */
  lemma ParseNatToString(n: nat)
    ensures ParseDigits(NatToString(n)) == Some(n)
    ensures ParseInt(NatToString(n)) == Some(n)
  {
    AllDigitsPrefix(NatToString(n));
    NatToStringValue(n);
  }

  /** A minus sign before digits negates their value. */
  lemma ParseMinus(t: string, v: nat)
    requires ParseDigits(t) == Some(v)
    ensures ParseInt("-" + t) == Some(-(v as int))
  {
    var s := "-" + t;
    assert s[0] == '-' && s[1..] == t;
    assert SignStripped(s) == t;
  }

  /** `parseInt(String(i)) === i` for every id `i`, read as an exact integer. */
  lemma ParseIntToString(i: int)
    ensures ParseInt(IntToString(i)) == Some(i)
  {
    var s := IntToString(i);
    if i < 0 {
      var n: nat := -i;
      assert s == "-" + NatToString(n);
      ParseNatToString(n);
      ParseMinus(NatToString(n), n);
    } else {
      var n: nat := i;
      assert s == NatToString(n);
      ParseNatToString(n);
    }
  }

  /** Different integers have different texts. */
  lemma IntToStringInjective(i: int, j: int)
    requires IntToString(i) == IntToString(j)
    ensures i == j
  {
    ParseIntToString(i);
    ParseIntToString(j);
  }
}

=== FILE: schemas.dfy ===
/**
 * Request validation of the backend (backend/schemas.py): the field
 * constraints pydantic checks before a handler runs, stated as predicates
 * and as the list of failing field names reported with a 422 reply.
 */
module Schemas {
  import opened Wrappers

  const StatusNew: string := "New"
  const StatusFollowUp: string := "In Follow-up"
  const StatusPartial: string := "Partially Paid"
  const StatusClosed: string := "Closed"

  /** The four workflow statuses accepted by the `status` pattern. */
  predicate IsStatus(s: string) {
    s == StatusNew || s == StatusFollowUp || s == StatusPartial || s == StatusClosed
  }

  const MaxTextLength: nat := 255
  const MaxPhoneLength: nat := 50
  const MaxInvoiceNumberLength: nat := 100

  /** `min_length=1, max_length=hi`. */
  predicate LengthOk(s: string, hi: nat) {
    1 <= |s| <= hi
  }

  /**
   * How a JSON body mentions an optional field: not at all, as an
   * explicit `null`, or with a value. pydantic's `exclude_unset` tells
   * the first two apart.
   */
  datatype Field<+T> = Unset | Null | Given(value: T)

  /** The value an optional field takes when the record is created. */
  function FieldValue<T>(f: Field<T>): (r: Option<T>)
    ensures r.Some? <==> f.Given?
    ensures f.Given? ==> r.value == f.value
  {
    match f
    case Given(v) => Some(v)
    case _ => None
  }

  // ---------------------------------------------------------------- clients

  /** The body of `POST /clients` (ClientCreate). */
  datatype ClientRequest = ClientRequest(
    clientName: string,
    companyName: string,
    city: string,
    contactPerson: string,
    phone: string,
    email: string)

  /** Every ClientBase constraint; email syntax is decided by `isEmail`. */
  predicate ValidClient(c: ClientRequest, isEmail: string -> bool) {
    && LengthOk(c.clientName, MaxTextLength)
    && LengthOk(c.companyName, MaxTextLength)
    && LengthOk(c.city, MaxTextLength)
    && LengthOk(c.contactPerson, MaxTextLength)
    && LengthOk(c.phone, MaxPhoneLength)
    && isEmail(c.email)
  }

  /** `[name]` when `bad` holds, else nothing. */
  function Report(bad: bool, name: string): (r: seq<string>)
    ensures name in r <==> bad
    ensures |r| <= 1
  {
    if bad then [name] else []
  }

  /** The names of the fields of a client request that fail validation, in declaration order. */
  function ClientErrors(c: ClientRequest, isEmail: string -> bool): (errs: seq<string>)
    ensures "client_name" in errs <==> !LengthOk(c.clientName, MaxTextLength)
    ensures "company_name" in errs <==> !LengthOk(c.companyName, MaxTextLength)
    ensures "city" in errs <==> !LengthOk(c.city, MaxTextLength)
    ensures "contact_person" in errs <==> !LengthOk(c.contactPerson, MaxTextLength)
    ensures "phone" in errs <==> !LengthOk(c.phone, MaxPhoneLength)
    ensures "email" in errs <==> !isEmail(c.email)
    ensures errs == [] <==> ValidClient(c, isEmail)
  {
    Report(!LengthOk(c.clientName, MaxTextLength), "client_name")
    + Report(!LengthOk(c.companyName, MaxTextLength), "company_name")
    + Report(!LengthOk(c.city, MaxTextLength), "city")
    + Report(!LengthOk(c.contactPerson, MaxTextLength), "contact_person")
    + Report(!LengthOk(c.phone, MaxPhoneLength), "phone")
    + Report(!isEmail(c.email), "email")
  }

  // ------------------------------------------------------------------ cases

  /**
   * The body of `POST /cases` (CaseCreate). Amounts are integer cents and
   * dates are day numbers.
   */
  datatype CaseRequest = CaseRequest(
    clientId: int,
    invoiceNumber: string,
    amountCents: int,
    invoiceDate: int,
    dueDate: int,
    status: string,
    notes: Field<string>)

  /** Every CaseCreate constraint. */
  predicate ValidCase(c: CaseRequest) {
    && LengthOk(c.invoiceNumber, MaxInvoiceNumberLength)
    && c.amountCents > 0
    && IsStatus(c.status)
    && c.clientId > 0
  }

  /** The names of the fields of a case request that fail validation, in declaration order. */
  function CaseErrors(c: CaseRequest): (errs: seq<string>)
    ensures "invoice_number" in errs <==> !LengthOk(c.invoiceNumber, MaxInvoiceNumberLength)
    ensures "invoice_amount" in errs <==> c.amountCents <= 0
    ensures "status" in errs <==> !IsStatus(c.status)
    ensures "client_id" in errs <==> c.clientId <= 0
    ensures errs == [] <==> ValidCase(c)
  {
    Report(!LengthOk(c.invoiceNumber, MaxInvoiceNumberLength), "invoice_number")
    + Report(c.amountCents <= 0, "invoice_amount")
    + Report(!IsStatus(c.status), "status")
    + Report(c.clientId <= 0, "client_id")
  }

  /** The body of `PATCH /cases/{id}` (CaseUpdate): only these two fields are read. */
  datatype CaseUpdate = CaseUpdate(status: Field<string>, notes: Field<string>)

  /**
   * The names of the fields of an update that fail validation. An explicit
   * `null` status is rejected: the stored status can never be null.
   */
  function UpdateErrors(u: CaseUpdate): (errs: seq<string>)
    ensures errs == [] <==> (u.status.Unset? || (u.status.Given? && IsStatus(u.status.value)))
  {
    Report(u.status.Null? || (u.status.Given? && !IsStatus(u.status.value)), "status")
  }

  /**
   * The validation CaseUpdate performs as written: the pattern is checked
   * only on a given string, so an explicit `null` status passes.
   */
  function UpdateErrorsAsWritten(u: CaseUpdate): (errs: seq<string>)
    ensures errs == [] <==> !(u.status.Given? && !IsStatus(u.status.value))
  {
    Report(u.status.Given? && !IsStatus(u.status.value), "status")
  }
}

=== FILE: ui.dfy ===
/**
 * Helpers every screen repeats: the status badge class (`getStatusClass`,
 * written out identically in CaseList.jsx and CaseDetail.jsx) and the
 * error text shown after a failed request.
 */
module Ui {
  import opened Wrappers
  import opened Schemas

  const ClassNew: string := "status-new"
  const ClassFollowUp: string := "status-followup"
  const ClassPartial: string := "status-partial"
  const ClassClosed: string := "status-closed"

  predicate IsStatusClass(cls: string) {
    cls == ClassNew || cls == ClassFollowUp || cls == ClassPartial || cls == ClassClosed
  }

  /** The badge class of a status; anything unrecognised looks like "New". */
  function StatusClass(status: string): (cls: string)
    ensures IsStatusClass(cls)
    ensures !IsStatus(status) ==> cls == ClassNew
  {
    if status == StatusNew then ClassNew
    else if status == StatusFollowUp then ClassFollowUp
    else if status == StatusPartial then ClassPartial
    else if status == StatusClosed then ClassClosed
    else ClassNew
  }

  /** The status a badge class stands for. */
  function ClassStatus(cls: string): (status: string)
    ensures IsStatus(status)
  {
    if cls == ClassFollowUp then StatusFollowUp
    else if cls == ClassPartial then StatusPartial
    else if cls == ClassClosed then StatusClosed
    else StatusNew
  }

  /** On the four statuses the badge class is one-to-one: the class tells the status. */
  lemma StatusClassRoundTrip(status: string)
    requires IsStatus(status)
    ensures ClassStatus(StatusClass(status)) == status
  {
  }

  /** Every class is the badge of exactly one status. */
  lemma ClassStatusRoundTrip(cls: string)
    requires IsStatusClass(cls)
    ensures StatusClass(ClassStatus(cls)) == cls
  {
  }

  /**
   * `err.response?.data?.detail || fallback`: the backend's detail when a
   * reply carried a non-empty one, else the screen's own message. `None`
   * covers both a missing reply (network failure) and a reply without detail.
   */
  function ErrorText(detail: Option<string>, fallback: string): (msg: string)
    ensures detail.Some? && detail.value != "" ==> msg == detail.value
    ensures detail.None? || detail.value == "" ==> msg == fallback
    ensures fallback != "" ==> msg != ""
  {
    match detail
    case Some(d) => if d != "" then d else fallback
    case None => fallback
  }
}

=== FILE: wrappers.dfy ===
/** Failure-carrying datatypes shared by the backend and the frontend model. */
module Wrappers {

  /** A value that may be missing: Python's `None`, JavaScript's `null`. */
  datatype Option<+T> = None | Some(value: T) {

    /** The carried value, or `default` when there is none. */
    function GetOr(default: T): T {
      match this
      case Some(v) => v
      case None => default
    }
  }

  /** Either a value or an error. */
  datatype Result<+T, +E> = Ok(value: T) | Err(error: E)
}
